=== FILE: README.md ===
# A verified model of the BYR jsDelivr-style npm gateway

The gateway is a small HTTP server. It answers `/<package>[@<range>][/<path>]`
(optionally behind `/npm/`) from the package's npm tarball. It can send:

- the file at the requested path;
- an HTML listing of the package root, when the path is a bare `/`;
- the package's entry point, when there is no path at all.

This project models that decision logic in Dafny and proves what it promises:

- `Sniff` (sniff.dfy): content-type sniffing (`detectFileTypeByBuffer`). First a
  rule for short buffers, then magic numbers compared on the upper-case hex
  spelling of the first 16 bytes, then text heuristics in a fixed order, then
  the printable-byte scan (`isTextBuffer`). The scan is a loop method proved
  against a specification predicate. The hex comparison is proved equal to a
  byte-level reference `MagicNumber` through a hex round trip.
- `Paths` (paths.dfy): `ensureLeadingSlash`, the `package/` renaming of
  tarball entries, the leading-slash stripping of the listing page, and the
  listing's "one name under the root" filter `/^\/[^\/]*$/`.
- `EntryPoint` (manifest.dfy): `findPath` over a manifest with optional JSON
  fields and JavaScript truthiness.
- `Archive` (archive.dfy): the two passes over the decoded tarball entries.
  - `getFileContent`: the bytes of the first entry with the requested path.
  - `getDirectoryListing`: the top-level regular files, in archive order.

  Each pass is a loop method proved against a recursive specification
  function.
- `ListingPage` (listing.dfy): `generateDirectoryListing`. It is proved line by
  line: the title line, then one link per path in order.
- `Failures` (failures.dfy): the failures the handler throws, the message each
  one carries, and the status the catch block derives by searching that
  message. It also holds the status each kind of failure is meant to get (see
  Findings).
- `Gateway` (gateway.dfy):
  - the request-path pattern, as a parser proved to be the exact inverse of
    formatting;
  - the choice between welcome page, 404, entry point, listing and file;
  - the body of the handler for one request, with the two network replies
    (version manifest and tarball) as parameters.

Shared definitions (`Option`, `Result`, a JavaScript `startsWith`/`includes`,
decimal printing) live in `Common` (common.dfy).

The regular expressions and `JSON.parse` behind the text heuristics are
abstract predicates. They are the function-valued fields of a `TextRules`
value and keep their order in the cascade. They see the first 256 bytes,
except `parsesAsJson`, which sees the whole buffer.

## Model

| member | source | states |
|---|---|---|
| Sniff.IsTextBuffer | server.js:91-102 | the scan answers true exactly when none of the first min(length, 512) bytes is a control byte other than tab, line feed and carriage return; bytes of 127 and above are text |
| Sniff.IsTextIgnoresTail | server.js:93 | bytes at index 512 and beyond never change the scan |
| Sniff.ShortBufferIsOctetStream | server.js:14-16 | a missing buffer or one of fewer than 4 bytes is `application/octet-stream` |
| Sniff.UnhexHex | server.js:19 | the upper-case hex spelling of bytes is decoded back to the same bytes, so comparing spellings compares bytes |
| Sniff.HexStartsWith | server.js:19-29 | the spelling of a buffer starts with the spelling of a signature exactly when the buffer starts with the signature |
| Sniff.HexSlice | server.js:30 | a window of the spelling, cut at even positions, is the spelling of the matching window of bytes |
| Sniff.HexMagicIsMagicNumber | server.js:19-31 | the hex-string comparisons of the server decide exactly as the byte-level signature table does, first match winning |
| Sniff.Detect | server.js:12-89 | `detectFileTypeByBuffer`: a missing buffer or one under 4 bytes is opaque; otherwise the hex-spelled signatures of the first 16 bytes, then the text heuristics in order, then the scan; `PlainText` only for a buffer the scan accepts and `Json` only for one that parses |
| Sniff.DetectCascade | server.js:12-89 | a buffer of 4 bytes or more gets the first signature it starts with, and only without one do the text rules and then the scan decide |
| Sniff.MagicBeatsText | server.js:23-44 | no text heuristic can override a magic number |
| Sniff.JpegSignature | server.js:23 | a buffer starting FF D8 FF is `image/jpeg`, whatever follows |
| Sniff.GzipSignature | server.js:28 | a buffer starting 1F 8B 08 is `application/gzip` |
| Sniff.WebpSignature | server.js:30-31 | `image/webp` exactly when bytes 0-3 are 52 49 46 46 and bytes 8-11 are 57 45 42 50 |
| Sniff.ScanDecidesLast | server.js:81-88 | with no signature and no heuristic claiming it, a buffer is `text/plain` exactly when it passes the scan, else `application/octet-stream` |
| Paths.EnsureLeadingSlash | server.js:104-106 | the result starts with `/`, is the path itself or the path behind one added `/`, and is the path itself exactly when the path was rooted |
| Paths.EnsureLeadingSlashIdempotent | server.js:104-106 | applying it twice is applying it once |
| Paths.StripLeadingSlash | server.js:227 | one leading `/` is removed when present, and nothing changes otherwise |
| Paths.StripUndoesEnsure | server.js:104-106 | stripping undoes adding the separator, and adding undoes stripping on a path with exactly one leading `/` |
| Paths.NormalizeEntryPath | server.js:152-156 | every normalised entry path starts with `/` |
| Paths.NormalizePackageEntry | server.js:152-153 | `package/x` is served as `/x` |
| Paths.NormalizeOtherEntry | server.js:154-156 | any other entry path only gains a leading `/` and a rooted one is kept |
| Paths.TopLevelIsOneName | server.js:190 | `/name` passes the listing filter exactly when `name` has no `/` |
| EntryPoint.RootedValue | server.js:104-106 | a string manifest value gets its leading `/`; any other value has no `startsWith` and fails |
| EntryPoint.FindPath | server.js:108-133 | a chosen entry point is rooted; the only failures are "404 Not Found" and the non-string type error |
| EntryPoint.JsdelivrWins | server.js:110-112 | a truthy `jsdelivr` decides alone, whatever `exports` and `main` hold |
| EntryPoint.ExportsBeforeMain | server.js:114-126 | without `jsdelivr`, a non-empty string `exports["."]`, or a non-empty string `default` under it, is the path chosen (with a leading `/`) whatever `main` holds |
| EntryPoint.MainIsLastResort | server.js:127-130 | a non-empty string `main` is the path chosen (with a leading `/`) when neither earlier field gives a candidate |
| EntryPoint.NoEntryPoint | server.js:131-132 | "404 Not Found" is thrown exactly when no field gives a candidate, and it is answered with 404 |
| EntryPoint.EmptyStringIsAbsent | server.js:108-130 | an empty string in `jsdelivr`, `main`, `exports["."]` or its `default` is treated as an absent field |
| Archive.ExtractedAppend | server.js:158-171 | once a stretch of the archive has a match, later entries are irrelevant; until then, earlier entries contribute nothing |
| Archive.ExtractedIsFirstMatch | server.js:158-171 | extraction succeeds exactly when some entry matches, then yields exactly the bytes of the first matching entry, and otherwise fails with "File not found" for the path |
| Archive.ExtractFile | server.js:141-179 | the per-entry callback (the `found` flag, the `chunks` buffer, one resolution at the end of the first match, rejection after the last entry) computes the specified extraction |
| Archive.ListingAppend | server.js:191-212 | the listing is taken stretch by stretch, keeping archive order |
| Archive.ListingMembers | server.js:201-205 | the listing holds exactly the normalised paths of `File` entries directly under the root; every member passes the filter |
| Archive.ListTopLevel | server.js:187-212 | the per-entry callback pushing onto `fileList` computes the specified listing |
| Archive.ListedPathsExtract | server.js:158-205 | every listed path can be extracted from the same archive |
| ListingPage.LinesJoin | server.js:229 | splitting on newlines undoes joining pieces that hold none |
| ListingPage.Render | server.js:223-245 | `generateDirectoryListing`: the template lines joined by newlines, with the item lines joined in the middle; the page starts with the doctype line |
| ListingPage.RenderLines | server.js:223-245 | the page is the fixed head, one item per path in order (one blank line when there are none) and the fixed tail |
| ListingPage.RenderedLinks | server.js:224-240 | the page has 14 + n lines, line 7 is `<h1>package@version</h1>`, and line 10 + i links to path i with one leading `/` removed, as both target and text |
| Failures.StatusAsWritten | server.js:357-370 | the catch block applied to a failure's message: 504 exactly when it mentions "request failed", 404 exactly when it then mentions "404", otherwise 500 |
| Failures.StatusForMessage | server.js:357-370 | 504 whenever the message mentions "request failed", otherwise 404 when it mentions "404", otherwise 500, and never another code |
| Failures.Status | server.js:357-370 | the classification by kind: upstream fetch failures are 504, missing things 404, the rest 500 |
| Failures.UnmarkedMessageIs500 | server.js:357-370 | a message with no `q` and no `4` mentions neither marker and is answered with 500 |
| Failures.MessageAfterHead | server.js:357-370 | a fixed message head without either marker, and with no `r` in its last 13 characters, leaves the status to the text after it |
| Failures.RegistryFailureIs504 | server.js:328-362 | a failed manifest fetch is 504, whatever its status |
| Failures.MissingEntryPointIs404 | server.js:363-366 | "404 Not Found" is answered with 404 |
| Failures.MissingFileAsWritten | server.js:357-370 | as written, a missing file is classified by its path alone, so every path that mentions neither "404" nor "request failed" is answered with 500 |
| Failures.MissingFileExample | server.js:357-370 | `/missing.js` missing: 500 as written, 404 by kind |
| Failures.TarballFailureAsWritten | server.js:357-370 | as written, a failed tarball download is never a 504: it is 404 when its status digits contain "404", and 500 for every other status |
| Failures.TarballFailureExample | server.js:357-370 | an upstream 503 on the tarball: 500 as written, 504 by kind |
| Failures.TarballNotFoundExample | server.js:357-370 | an upstream 404 on the tarball: 404 as written, 504 by kind |
| Failures.TypeErrorIs500 | server.js:367-370 | the type error of a non-string manifest value is answered with 500 |
| Failures.StatusAgreesElsewhere | server.js:357-370 | outside the two failures of the findings, the classification by kind agrees with the message search on every kind, and on an unexpected error exactly when its message mentions neither marker |
| Gateway.MatchUrl | server.js:283 | the request pattern: a leading `/`, the optional `npm/` (dropped again when the rest does not match after it), an optional `@scope/`, a non-empty name, an optional non-empty `@range` and an optional `/path`; a match always has a non-empty name and, when present, a non-empty range |
| Gateway.MatchPackageOfFormat | server.js:283 | every well-formed scope, name, version range and path is read back from the text they make up |
| Gateway.FormatOfMatchPackage | server.js:283 | a match covers its text exactly, and its version and path have the shape the pattern demands |
| Gateway.FormatOfMatchUrl | server.js:283 | a matched request path is `/` or `/npm/` followed by the text of the match |
| Gateway.MatchUrlOfFormat | server.js:283 | behind `/npm/` a well-formed request reads back; behind a bare `/` too, except for the package `npm` followed directly by a path |
| Gateway.FormatStartingWithNpm | server.js:283 | only the package `npm` followed directly by a path formats to a text starting with `npm/` |
| Gateway.RouteOf | server.js:277-293 | the dispatch on the request path: the welcome page exactly for `/`, "Not found" when the pattern fails, otherwise the package with its range (`latest` when absent); a package route always has a non-empty name and range |
| Gateway.ModeOf | server.js:315-332 | the listing exactly for the path `/`, the entry point exactly for no path, the named file otherwise |
| Gateway.RouteOfFormat | server.js:283-293 | a well-formed request routes to its own package, its range (`latest` when absent) and its mode, behind `/npm/` always and behind a bare `/` unless it is the package `npm` followed directly by a path |
| Gateway.BareRoutes | server.js:283-293 | for every unscoped name, `npm` included, `/name` asks for the entry point of the latest `name` and `/name/` for its listing |
| Gateway.FetchFile | server.js:135-180 | `getFileContent` as its promise settles: a non-2xx download fails with "Tarball download failed", a success holds the bytes of an entry with the requested path, a complete archive without one fails with "File not found", and a decoding error counts only before the first match |
| Gateway.FetchListing | server.js:182-220 | `getDirectoryListing` as its promise settles: it resolves exactly when the archive is read to the end, and then only with top-level paths |
| Gateway.Serve | server.js:299-353 | the `try` block: a missing tarball URL is checked first; a file request skips the manifest status; listing and entry-point requests fail with "Registry request failed" on a non-2xx status; a listing request alone answers with the listing page |
| Gateway.ServedFileIsFirstMatch | server.js:315-326 | a served file holds exactly the bytes of the first entry with the requested path, labelled with their sniffed type |
| Gateway.MissingFileEndToEnd | server.js:315-370 | a request for a file absent from the tarball fails with "File not found" and gets 404 by kind; as written it gets 500 whenever the path mentions neither marker |
| Gateway.FileModeIgnoresRegistryStatus | server.js:315-330 | a file request is served whatever the manifest fetch's status; the other modes fail with "Registry request failed" on a non-2xx status |
| Gateway.ListingEndToEnd | server.js:332-340 | a listing request renders the top-level files of the tarball, in archive order, under `name@version` |
| Gateway.EntryPointEndToEnd | server.js:342-352 | an entry-point request serves what `findPath` names, or fails as it does |
| Gateway.BreakAfterMatchIsHarmless | server.js:158-178 | a decoding error after the requested entry changes nothing, since the promise has already settled |

## Left out

- Version resolution (`findversion`, server.js:247-272) is not modelled.
  It fetches the registry and calls `semver`. The resolved version is a
  parameter of `Gateway.Serve`.
- Network access, the HTTP server, response headers (`Content-Type`,
  `Cache-Control`), the welcome page body and the listen call are not
  modelled. `Gateway.Serve` takes the manifest fetch and the tarball fetch as
  values. The manifest's JSON body is assumed to parse. A reply that is not
  JSON, or a fetch that throws, is classified by the catch block's search
  of the thrown message; that path is not modelled.
- gzip decompression and tar decoding are not modelled. The archive is the
  sequence of entries the tar parser yields. A decoding error is a `Broken`
  tarball that carries the entries yielded before it.
- The stream, promise and event plumbing is not modelled. Each pass over the
  entries is one loop, and a promise settles once.
- `jschardet` charset guessing is not modelled. It is an opaque statistical
  library, and it only adds the `charset` parameter of the header.
- UTF-8 decoding, lower-casing, the regular-expression engine and
  `JSON.parse` behind the text heuristics (server.js:36-79) are abstract
  predicates in `Sniff.TextRules`. Only their order and their inputs are
  modelled.
- The `REGISTRY` environment variable and console logging are not modelled.
- JSON numbers are Dafny `real`s, so their truthiness (`0` is falsy) is exact
  but floating-point rounding is not modelled.
- `Gateway.MatchUrl`: the request path is a sequence of characters, so the
  pattern's `.` is modelled on characters. Percent-encoding is left as the
  server receives it.
- `Sniff.TextStage`: the JSON rule's `trim` is part of the abstract
  `jsonOpener` predicate.

## Findings

The handler's catch block (server.js:357-370) picks the status by searching
the error message. Two failures carry messages that do not hold the marker
meant for them. The model keeps the server's behaviour in
`Failures.StatusAsWritten`. The corrected classification by kind is
`Failures.Status`, which `Gateway.ResponseStatus` uses.

| source | as written | input that shows it | evidently intended | confidence | as-written member | corrected member |
|---|---|---|---|---|---|---|
| server.js:363-370 | "File not found: <path>" holds no "404", so a path missing from the tarball is answered with 500 and the body "Error: File not found: <path>" | GET `/left-pad/missing.js` on a tarball without `package/missing.js` | 404, as for a missing entry point or tarball URL | high; not executed | Failures.MissingFileExample | Failures.Status |
| server.js:357-370 | "Tarball download failed: <status>" holds no "request failed", so an upstream 503 on the tarball is answered with 500 (an upstream 404 with 404), never the 504 "Registry service unavailable" a failed manifest fetch gets | tarball fetch answering 503 | 504, as for a failed manifest fetch | medium; not executed | Failures.TarballFailureExample | Failures.Status |

=== FILE: archive.dfy ===
/** The two passes the gateway makes over a package tarball, on the entries
    the tar parser yields in archive order (decompression and tar decoding are
    not part of this model). Every entry path is first normalised: npm puts
    each file under `package/`, which is replaced by the leading separator.
    Single-file extraction resolves with the bytes of the first entry whose
    normalised path is the requested one; listing collects the normalised
    paths of the regular files directly under the package root. */
module Archive {
  import opened Common
  import opened Paths
  import opened Failures

  /** Entry types the tar parser reports; the listing keeps only `File`. */
  datatype EntryType = File | Directory | SymbolicLink | Link | OtherType

  /** A decoded tarball entry: its raw path, its type and its content. */
  datatype Entry = Entry(path: string, kind: EntryType, data: seq<byte>)

  /** The entry is the one a request for `target` asks for. */
  predicate Matches(e: Entry, target: string)
  {
    NormalizeEntryPath(e.path) == target
  }

  /** The entry shows up in the directory listing. */
  predicate Listed(e: Entry)
  {
    e.kind == File && IsTopLevel(NormalizeEntryPath(e.path))
  }

  // ---------------------------------------------------------------------
  // Single-file extraction

  /** What extraction of `target` settles with: the content of the first
      matching entry, or "File not found" after the whole archive. */
  function Extracted(entries: seq<Entry>, target: string): Result<seq<byte>, Failure>
  {
    if entries == [] then Err(FileNotFound(target))
    else if Matches(entries[0], target) then Ok(entries[0].data)
    else Extracted(entries[1..], target)
  }

  /** Extraction over two stretches of an archive: once the first stretch
      has a match, the second is irrelevant; until then, the entries seen so
      far contribute nothing. */
  lemma {:induction false} ExtractedAppend(a: seq<Entry>, b: seq<Entry>, target: string)
    ensures Extracted(a + b, target) == if Extracted(a, target).Ok? then Extracted(a, target) else Extracted(b, target)
  {
    if a == [] {
      assert a + b == b;
    } else {
      assert (a + b)[0] == a[0] && (a + b)[1..] == a[1..] + b;
      ExtractedAppend(a[1..], b, target);
    }
  }

  /** Extraction succeeds exactly when some entry matches; otherwise it
      fails with "File not found" for the requested path. */
  lemma {:induction false} ExtractedSucceedsOnMatch(entries: seq<Entry>, target: string)
    ensures Extracted(entries, target).Ok? <==> exists j | 0 <= j < |entries| :: Matches(entries[j], target)
    ensures Extracted(entries, target).Err? ==> Extracted(entries, target).error == FileNotFound(target)
  {
    if entries != [] {
      ExtractedSucceedsOnMatch(entries[1..], target);
      if exists j | 0 <= j < |entries[1..]| :: Matches(entries[1..][j], target) {
        var j :| 0 <= j < |entries[1..]| && Matches(entries[1..][j], target);
        assert Matches(entries[j + 1], target);
      }
      if exists j | 0 <= j < |entries| :: Matches(entries[j], target) {
        var j :| 0 <= j < |entries| && Matches(entries[j], target);
        if j > 0 {
          assert Matches(entries[1..][j - 1], target);
        }
      }
    }
  }

  /** A successful extraction yields exactly the bytes of the first
      matching entry. */
  lemma {:induction false} ExtractedIsFirst(entries: seq<Entry>, target: string)
    requires Extracted(entries, target).Ok?
    ensures exists j | 0 <= j < |entries| ::
      Matches(entries[j], target) && Extracted(entries, target).value == entries[j].data &&
      forall k | 0 <= k < j :: !Matches(entries[k], target)
  {
    if Matches(entries[0], target) {
      assert Matches(entries[0], target) && Extracted(entries, target).value == entries[0].data;
    } else {
      var rest := entries[1..];
      ExtractedIsFirst(rest, target);
      var j :| 0 <= j < |rest| && Matches(rest[j], target) &&
        Extracted(rest, target).value == rest[j].data &&
        forall k | 0 <= k < j :: !Matches(rest[k], target);
      forall k | 0 <= k < j + 1 ensures !Matches(entries[k], target) {
        if k > 0 {
          assert entries[k] == rest[k - 1];
        }
      }
      assert entries[j + 1] == rest[j];
    }
  }

  /** Extraction succeeds exactly when some entry matches, and then yields
      exactly the bytes of the first matching entry; otherwise it fails with
      "File not found" for the requested path. */
  lemma ExtractedIsFirstMatch(entries: seq<Entry>, target: string)
    ensures Extracted(entries, target).Ok? <==> exists j | 0 <= j < |entries| :: Matches(entries[j], target)
    ensures Extracted(entries, target).Ok? ==>
      exists j | 0 <= j < |entries| ::
        Matches(entries[j], target) && Extracted(entries, target).value == entries[j].data &&
        forall k | 0 <= k < j :: !Matches(entries[k], target)
    ensures Extracted(entries, target).Err? ==> Extracted(entries, target).error == FileNotFound(target)
  {
    ExtractedSucceedsOnMatch(entries, target);
    if Extracted(entries, target).Ok? {
      ExtractedIsFirst(entries, target);
    }
  }

  /** Extraction over one more entry. */
  lemma ExtractedStep(entries: seq<Entry>, i: nat, target: string)
    requires i < |entries|
    ensures Extracted(entries[..i + 1], target) ==
      if Extracted(entries[..i], target).Ok? then Extracted(entries[..i], target)
      else if Matches(entries[i], target) then Ok(entries[i].data)
      else Err(FileNotFound(target))
  {
    assert entries[..i + 1] == entries[..i] + [entries[i]];
    ExtractedAppend(entries[..i], [entries[i]], target);
    assert [entries[i]][1..] == [];
  }

  /** `getFileContent`'s entry callback run over the archive: a matching
      entry sets `found` and has its data collected, and the promise
      resolves once, at the end of the first matching entry; after the last
      entry the promise is rejected unless something was found. */
  method ExtractFile(entries: seq<Entry>, filePath: string) returns (r: Result<seq<byte>, Failure>)
    ensures r == Extracted(entries, filePath)
  {
    var found := false;
    var chunks: seq<byte> := [];
    var resolved: Option<seq<byte>> := None;
    for i := 0 to |entries|
      invariant found <==> resolved.Some?
      invariant !found ==> Extracted(entries[..i], filePath) == Err(FileNotFound(filePath))
      invariant found ==> Extracted(entries[..i], filePath).Ok?
      invariant !found ==> chunks == []
      invariant found ==> resolved.value == Extracted(entries[..i], filePath).value
    {
      var entryPath := NormalizeEntryPath(entries[i].path);
      if entryPath == filePath {
        found := true;
        chunks := chunks + entries[i].data;
        if resolved.None? {
          resolved := Some(chunks);
        }
      }
      ExtractedStep(entries, i, filePath);
    }
    assert entries[..|entries|] == entries;
    if !found {
      r := Err(FileNotFound(filePath));
    } else {
      r := Ok(resolved.value);
    }
  }

  // ---------------------------------------------------------------------
  // Listing

  /** The listing of an archive: the normalised paths of its listed entries,
      in archive order. */
  function Listing(entries: seq<Entry>): seq<string>
  {
    if entries == [] then []
    else (if Listed(entries[0]) then [NormalizeEntryPath(entries[0].path)] else []) + Listing(entries[1..])
  }

  /** Listing is taken stretch by stretch: archive order is kept. */
  lemma {:induction false} ListingAppend(a: seq<Entry>, b: seq<Entry>)
    ensures Listing(a + b) == Listing(a) + Listing(b)
  {
    if a == [] {
      assert a + b == b;
    } else {
      assert (a + b)[0] == a[0] && (a + b)[1..] == a[1..] + b;
      ListingAppend(a[1..], b);
    }
  }

  /** The listing holds exactly the normalised paths of regular files that
      sit directly under the package root: directories, links and nested
      files never appear, and every listed path is a separator followed by
      one name. */
  lemma {:induction false} ListingMembers(entries: seq<Entry>)
    ensures forall p | p in Listing(entries) :: IsTopLevel(p)
    ensures forall p :: p in Listing(entries) <==>
      exists j | 0 <= j < |entries| :: Listed(entries[j]) && NormalizeEntryPath(entries[j].path) == p
  {
    if entries != [] {
      ListingMembers(entries[1..]);
      forall p
        ensures p in Listing(entries) <==>
          exists j | 0 <= j < |entries| :: Listed(entries[j]) && NormalizeEntryPath(entries[j].path) == p
      {
        if exists j | 0 <= j < |entries| :: Listed(entries[j]) && NormalizeEntryPath(entries[j].path) == p {
          var j :| 0 <= j < |entries| && Listed(entries[j]) && NormalizeEntryPath(entries[j].path) == p;
          if j > 0 {
            assert entries[1..][j - 1] == entries[j];
          }
        }
        if p in Listing(entries[1..]) {
          var j :| 0 <= j < |entries[1..]| && Listed(entries[1..][j]) && NormalizeEntryPath(entries[1..][j].path) == p;
          assert entries[j + 1] == entries[1..][j];
        }
      }
    }
  }

  /** The listing over one more entry. */
  lemma ListingStep(entries: seq<Entry>, i: nat)
    requires i < |entries|
    ensures Listing(entries[..i + 1]) ==
      Listing(entries[..i]) + if Listed(entries[i]) then [NormalizeEntryPath(entries[i].path)] else []
  {
    assert entries[..i + 1] == entries[..i] + [entries[i]];
    ListingAppend(entries[..i], [entries[i]]);
    assert [entries[i]][1..] == [];
  }

  /** `getDirectoryListing`'s entry callback run over the archive: a
      regular file whose normalised path is top-level is pushed onto
      `fileList`; the promise resolves with it after the last entry. */
  method ListTopLevel(entries: seq<Entry>) returns (fileList: seq<string>)
    ensures fileList == Listing(entries)
  {
    fileList := [];
    for i := 0 to |entries|
      invariant fileList == Listing(entries[..i])
    {
      var entryPath := NormalizeEntryPath(entries[i].path);
      if entries[i].kind == File && IsTopLevel(entryPath) {
        fileList := fileList + [entryPath];
      }
      ListingStep(entries, i);
    }
    assert entries[..|entries|] == entries;
  }

  /** Extraction and listing agree: every path the listing shows can be
      extracted from the same archive. */
  lemma ListedPathsExtract(entries: seq<Entry>, p: string)
    requires p in Listing(entries)
    ensures Extracted(entries, p).Ok?
  {
    ListingMembers(entries);
    var j :| 0 <= j < |entries| && Listed(entries[j]) && NormalizeEntryPath(entries[j].path) == p;
    assert Matches(entries[j], p);
    ExtractedIsFirstMatch(entries, p);
  }
}

=== FILE: common.dfy ===
/** Small vocabulary shared by every component of the gateway: bytes, optional
    values, results, and the two JavaScript string tests the server relies on
    (`startsWith` and `includes`). */
module Common {

  /** One octet of a Node.js `Buffer`. */
  type byte = x: int | 0 <= x < 256

  datatype Option<T> = None | Some(value: T)

  /** The outcome of an operation that may throw: `Err` carries what was thrown. */
  datatype Result<T, E> = Ok(value: T) | Err(error: E)

  function Min(a: int, b: int): int
  {
    if a <= b then a else b
  }

  /** JavaScript `s.startsWith(p)`. */
  predicate StartsWith<T(==)>(s: seq<T>, p: seq<T>)
  {
    |p| <= |s| && s[..|p|] == p
  }

  /** JavaScript `s.includes(p)`: `p` occurs somewhere in `s`. */
  predicate Contains<T(==)>(s: seq<T>, p: seq<T>)
    decreases |s|
  {
    StartsWith(s, p) || (s != [] && Contains(s[1..], p))
  }

  /** Whatever sits between `a` and `c` is contained in the concatenation. */
  lemma {:induction false} ContainsMiddle<T>(a: seq<T>, p: seq<T>, c: seq<T>)
    ensures Contains(a + p + c, p)
    decreases |a|
  {
    if a == [] {
      assert a + p + c == p + c;
      assert (p + c)[..|p|] == p;
    } else {
      ContainsMiddle(a[1..], p, c);
      assert (a + p + c)[1..] == a[1..] + p + c;
    }
  }

  /** A sequence contains nothing longer than itself, and every element of
      a pattern it contains occurs in it. */
  lemma {:induction false} ContainsNeedsEach<T>(s: seq<T>, p: seq<T>, k: nat)
    requires k < |p|
    requires Contains(s, p)
    ensures |p| <= |s| && p[k] in s
    decreases |s|
  {
    if StartsWith(s, p) {
      assert s[k] == s[..|p|][k];
    } else {
      ContainsNeedsEach(s[1..], p, k);
      assert p[k] in s[1..];
    }
  }

  /** A prefix that does not contain `p`, and in whose last `|p| - 1`
      elements `p` cannot start, adds no occurrence of `p`. */
  lemma {:induction false} ContainsAfter<T>(a: seq<T>, b: seq<T>, p: seq<T>)
    requires p != []
    requires !Contains(a, p)
    requires forall k | 0 <= k < |a| && |a| - k < |p| :: a[k] != p[0]
    ensures Contains(a + b, p) <==> Contains(b, p)
    decreases |a|
  {
    if a == [] {
      assert a + b == b;
    } else {
      assert (a + b)[1..] == a[1..] + b;
      forall k | 0 <= k < |a[1..]| && |a[1..]| - k < |p| ensures a[1..][k] != p[0] {
        assert a[1..][k] == a[k + 1];
      }
      ContainsAfter(a[1..], b, p);
      assert !StartsWith(a + b, p) by {
        if |p| <= |a| {
          assert (a + b)[..|p|] == a[..|p|];
        } else {
          assert (a + b)[0] == a[0];
        }
      }
    }
  }

  /** Decimal digits of a natural number, as JavaScript prints an integer. */
  function NatToString(n: nat): (r: string)
    ensures r != []
    ensures forall i | 0 <= i < |r| :: '0' <= r[i] <= '9'
    decreases n
  {
    var digit := [('0' as int + n % 10) as char];
    if n < 10 then digit else NatToString(n / 10) + digit
  }

  /** The three parts of a concatenation, cut back out. */
  lemma Split3<T>(a: seq<T>, b: seq<T>, c: seq<T>)
    ensures (a + b + c)[..|a|] == a
    ensures (a + b + c)[|a|..|a| + |b|] == b
    ensures (a + b + c)[|a| + |b|..] == c
  {
    var s := a + b + c;
    assert s[..|a|] == a;
    assert s[|a|..|a| + |b|] == b;
    assert s[|a| + |b|..] == c;
  }
}

=== FILE: failures.dfy ===
/** What the request handler can fail with, the message text each failure
    carries in the server, and how the handler turns a failure into an HTTP
    status. The handler classifies errors by searching their message text;
    `StatusAsWritten` models exactly that, and `Status` is the classification by
    kind that the message search was evidently meant to implement. */
module Failures {
  import opened Common

  datatype Failure =
    | RegistryRequestFailed(status: nat)  // the version manifest fetch answered with a non-2xx status
    | TarballDownloadFailed(status: nat)  // the tarball fetch answered with a non-2xx status
    | FileNotFound(path: string)          // no tarball entry has the requested path
    | NotFound                            // no entry point in the manifest, or no tarball URL
    | NotAFunction                        // `ensureLeadingSlash` was given a manifest value that is not a string
    | Unexpected(message: string)         // anything else: gunzip, tar or JSON errors

  /** The `message` of the Error object the server throws for each failure. */
  function Message(f: Failure): string
  {
    match f
    case RegistryRequestFailed(s) => "Registry request failed: " + NatToString(s)
    case TarballDownloadFailed(s) => "Tarball download failed: " + NatToString(s)
    case FileNotFound(p) => "File not found: " + p
    case NotFound => "404 Not Found"
    case NotAFunction => "filePath.startsWith is not a function"
    case Unexpected(m) => m
  }

  /** The catch block of the request handler: 504 when the message mentions
      "request failed", else 404 when it mentions "404", else 500. */
  function StatusForMessage(message: string): (code: nat)
    ensures code in {404, 500, 504}
    ensures Contains(message, "request failed") ==> code == 504
    ensures !Contains(message, "request failed") && Contains(message, "404") ==> code == 404
    ensures !Contains(message, "request failed") && !Contains(message, "404") ==> code == 500
  {
    if Contains(message, "request failed") then 504
    else if Contains(message, "404") then 404
    else 500
  }

  /** The status the server answers a failure with, as written. */
  function StatusAsWritten(f: Failure): (code: nat)
    ensures code in {404, 500, 504}
    ensures code == 504 <==> Contains(Message(f), "request failed")
    ensures code == 404 <==> !Contains(Message(f), "request failed") && Contains(Message(f), "404")
  {
    StatusForMessage(Message(f))
  }

  /** The status each kind of failure is meant to get: upstream fetch
      failures are 504, missing things are 404, the rest is 500. */
  function Status(f: Failure): (code: nat)
    ensures code == 504 <==> f.RegistryRequestFailed? || f.TarballDownloadFailed?
    ensures code == 404 <==> f.FileNotFound? || f.NotFound?
    ensures code == 500 <==> f.NotAFunction? || f.Unexpected?
  {
    match f
    case RegistryRequestFailed(_) => 504
    case TarballDownloadFailed(_) => 504
    case FileNotFound(_) => 404
    case NotFound => 404
    case NotAFunction => 500
    case Unexpected(_) => 500
  }

  /** A message mentions neither marker the handler searches for when it
      holds no 'q' (every "request failed" has one) and no '4'. */
  lemma {:induction false} UnmarkedMessageIs500(message: string)
    requires 'q' !in message && '4' !in message
    ensures !Contains(message, "request failed") && !Contains(message, "404")
    ensures StatusForMessage(message) == 500
  {
    if Contains(message, "request failed") {
      ContainsNeedsEach(message, "request failed", 2);
    }
    if Contains(message, "404") {
      ContainsNeedsEach(message, "404", 0);
    }
  }

  /** A fixed message head that mentions neither marker, and that ends in
      no character a marker could start with, leaves the classification to
      whatever text follows it. */
  lemma MessageAfterHead(head: string, tail: string)
    requires 'q' !in head && '4' !in head
    requires forall k | 0 <= k < |head| && |head| - k < 14 :: head[k] != 'r'
    ensures StatusForMessage(head + tail) == StatusForMessage(tail)
  {
    UnmarkedMessageIs500(head);
    ContainsAfter(head, tail, "request failed");
    ContainsAfter(head, tail, "404");
  }

  /** Every failed manifest fetch is reported as 504, whatever its status. */
  lemma RegistryFailureIs504(s: nat)
    ensures StatusAsWritten(RegistryRequestFailed(s)) == 504
    ensures Status(RegistryRequestFailed(s)) == 504
  {
    var digits := NatToString(s);
    assert Message(RegistryRequestFailed(s)) == "Registry " + "request failed" + (": " + digits);
    ContainsMiddle("Registry ", "request failed", ": " + digits);
  }

  /** A manifest without an entry point (or without a tarball URL) is 404. */
  lemma MissingEntryPointIs404()
    ensures StatusAsWritten(NotFound) == 404
    ensures Status(NotFound) == 404
  {
    var m := Message(NotFound);
    if Contains(m, "request failed") {
      ContainsNeedsEach(m, "request failed", 0);
    }
    assert StartsWith(m, "404");
  }

  /** Finding, as written: a path missing from the tarball is classified
      by the path alone, since "File not found: " mentions neither marker;
      so every path that does not itself mention "404" or "request failed"
      is answered with 500, not 404. */
  lemma MissingFileAsWritten(path: string)
    ensures StatusAsWritten(FileNotFound(path)) == StatusForMessage(path)
    ensures !Contains(path, "request failed") && !Contains(path, "404") ==> StatusAsWritten(FileNotFound(path)) == 500
  {
    var head := "File not found: ";
    assert Message(FileNotFound(path)) == head + path;
    assert 'q' !in head && '4' !in head;
    forall k | 0 <= k < |head| && |head| - k < 14 ensures head[k] != 'r' {
      assert head[3..] == "e not found: ";
      assert head[k] == head[3..][k - 3];
    }
    MessageAfterHead(head, path);
  }

  /** The concrete request of the finding: `/missing.js` absent from the
      tarball gives 500 where 404 is meant. */
  lemma MissingFileExample()
    ensures StatusAsWritten(FileNotFound("/missing.js")) == 500
    ensures Status(FileNotFound("/missing.js")) == 404
  {
    var path := "/missing.js";
    assert !Contains(path, "request failed") && !Contains(path, "404") by {
      assert 'q' !in path && '4' !in path;
      UnmarkedMessageIs500(path);
    }
    MissingFileAsWritten(path);
  }

  /** Finding, as written: a failed tarball download is never answered with
      504, because its message says "download failed", not "request failed";
      it is a 404 when the upstream status itself reads 404, and 500 for
      every other status. */
  lemma TarballFailureAsWritten(s: nat)
    ensures StatusAsWritten(TarballDownloadFailed(s)) == if Contains(NatToString(s), "404") then 404 else 500
  {
    var head := "Tarball download failed: ";
    var digits := NatToString(s);
    assert Message(TarballDownloadFailed(s)) == head + digits;
    assert 'q' !in head && '4' !in head;
    forall k | 0 <= k < |head| && |head| - k < 14 ensures head[k] != 'r' {
      assert head[12..] == "load failed: ";
      assert head[k] == head[12..][k - 12];
    }
    MessageAfterHead(head, digits);
    if Contains(digits, "request failed") {
      ContainsNeedsEach(digits, "request failed", 0);
    }
  }

  /** The concrete input of the second finding: an upstream 503 on the
      tarball gives 500 where 504 is meant. */
  lemma TarballFailureExample()
    ensures StatusAsWritten(TarballDownloadFailed(503)) == 500
    ensures Status(TarballDownloadFailed(503)) == 504
  {
    assert NatToString(503) == "503";
    TarballFailureAsWritten(503);
    UnmarkedMessageIs500("503");
  }

  /** An upstream 404 on the tarball is answered with 404, not 504: the
      status digits themselves carry the "404" the handler searches for. */
  lemma TarballNotFoundExample()
    ensures StatusAsWritten(TarballDownloadFailed(404)) == 404
    ensures Status(TarballDownloadFailed(404)) == 504
  {
    assert NatToString(404) == "404";
    assert StartsWith("404", "404");
    TarballFailureAsWritten(404);
  }

  /** A manifest entry that is not a string ends in a 500. */
  lemma TypeErrorIs500()
    ensures StatusAsWritten(NotAFunction) == 500
  {
    var m := Message(NotAFunction);
    assert m == "filePath.startsWith is not a function";
    assert 'q' !in m && '4' !in m;
    UnmarkedMessageIs500(m);
  }

  /** The corrected classification changes nothing but the two failures the
      message search gets wrong: it agrees with the server as written on
      every other kind, and on an unexpected error exactly when its message
      mentions neither marker. */
  lemma StatusAgreesElsewhere(f: Failure)
    requires !f.FileNotFound? && !f.TarballDownloadFailed?
    ensures !f.Unexpected? ==> Status(f) == StatusAsWritten(f)
    ensures f.Unexpected? ==>
      (Status(f) == StatusAsWritten(f) <==> !Contains(f.message, "request failed") && !Contains(f.message, "404"))
  {
    match f
    case RegistryRequestFailed(s) => RegistryFailureIs504(s);
    case NotFound => MissingEntryPointIs404();
    case NotAFunction => TypeErrorIs500();
    case Unexpected(m) =>
  }
}

=== FILE: gateway.dfy ===
/** The request handler's own logic: reading package, version range and
    in-package path out of the request path with the pattern
    `^\/(?:npm\/)?((?:@[^/]+\/)?[^/@]+)(?:@([^/]+))?(\/.*)?$`, choosing
    between entry-point, listing and single-file mode, and chaining the
    components for one request. Network replies (the version manifest and
    the tarball) are parameters. */
module Gateway {
  import opened Common
  import opened Paths
  import opened Failures
  import opened Sniff
  import opened EntryPoint
  import opened Archive
  import opened ListingPage

  // ---------------------------------------------------------------------
  // The request-path pattern

  /** The three capture groups; `None` is a group that took no part. */
  datatype UrlMatch = UrlMatch(name: string, version: Option<string>, path: Option<string>)

  /** Characters `.` does not match in a JavaScript regular expression. */
  predicate IsLineTerminator(c: char)
  {
    c == '\n' || c == '\r' || c as int == 0x2028 || c as int == 0x2029
  }

  /** The end of the run of `[^/]` characters starting at `i`. */
  function SegmentEnd(s: string, i: nat): (j: nat)
    requires i <= |s|
    ensures i <= j <= |s|
    ensures forall k | i <= k < j :: s[k] != '/'
    ensures j < |s| ==> s[j] == '/'
    decreases |s| - i
  {
    if i == |s| || s[i] == '/' then i else SegmentEnd(s, i + 1)
  }

  /** The end of the run of `[^/@]` characters starting at `i`. */
  function NameEnd(s: string, i: nat): (j: nat)
    requires i <= |s|
    ensures i <= j <= |s|
    ensures forall k | i <= k < j :: s[k] != '/' && s[k] != '@'
    ensures j < |s| ==> s[j] == '/' || s[j] == '@'
    decreases |s| - i
  {
    if i == |s| || s[i] == '/' || s[i] == '@' then i else NameEnd(s, i + 1)
  }

  /** `(\/.*)?$` after the name and version: nothing, or a separator and
      the rest of the text when it holds no line terminator. */
  function MatchTail(name: string, version: Option<string>, rest: string): (r: Option<UrlMatch>)
    ensures r.Some? ==> r.value.name == name && r.value.version == version
  {
    if rest == [] then Some(UrlMatch(name, version, None))
    else if rest[0] == '/' && forall k | 0 <= k < |rest| :: !IsLineTerminator(rest[k]) then
      Some(UrlMatch(name, version, Some(rest)))
    else None
  }

  /** `[^/@]+(?:@([^/]+))?(\/.*)?$` from position `from`; the name group
      starts at position 0, so it takes in a scope matched before `from`.
      Every quantifier must run to the end of its run: a shorter run leaves
      a character nothing after it can match. */
  function MatchName(s: string, from: nat): (r: Option<UrlMatch>)
    requires from <= |s|
    ensures r.Some? ==> r.value.name != [] && (r.value.version.Some? ==> r.value.version.value != [])
  {
    var p := NameEnd(s, from);
    if p == from then None
    else if p < |s| && s[p] == '@' then
      var q := SegmentEnd(s, p + 1);
      if q == p + 1 then None else MatchTail(s[..p], Some(s[p + 1..q]), s[q..])
    else MatchTail(s[..p], None, s[p..])
  }

  /** The pattern after its leading `/` (and optional `npm/`): an optional
      `@scope/`, which reaches the first separator, then the name. Without
      the scope, a text starting with `@` cannot match at all. */
  function MatchPackage(s: string): (r: Option<UrlMatch>)
    ensures r.Some? ==> r.value.name != [] && (r.value.version.Some? ==> r.value.version.value != [])
  {
    if s != [] && s[0] == '@' then
      var k := SegmentEnd(s, 1);
      if k == 1 || k == |s| then None else MatchName(s, k + 1)
    else MatchName(s, 0)
  }

  /** `reqpath.match(...)`: the optional `npm/` is tried first, and dropped
      again when the rest does not match after it. */
  function MatchUrl(url: string): (r: Option<UrlMatch>)
    ensures r.Some? ==> StartsWith(url, "/")
    ensures r.Some? ==> r.value.name != [] && (r.value.version.Some? ==> r.value.version.value != [])
  {
    if url == [] || url[0] != '/' then None
    else if StartsWith(url, "/npm/") && MatchPackage(url[5..]).Some? then MatchPackage(url[5..])
    else MatchPackage(url[1..])
  }

  // ---------------------------------------------------------------------
  // The pattern, read backwards

  /** The text a match covers after the leading `/` (and `npm/`). */
  function FormatPackage(m: UrlMatch): string
  {
    m.name + VersionPart(m.version) + PathPart(m.path)
  }

  /** `@version`, or nothing. */
  function VersionPart(version: Option<string>): (r: string)
    ensures r == [] || r[0] == '@'
  {
    if version.Some? then "@" + version.value else ""
  }

  /** The path capture, or nothing. */
  function PathPart(path: Option<string>): string
  {
    if path.Some? then path.value else ""
  }

  /** `[^/@]+` */
  predicate ValidBase(b: string)
  {
    b != [] && forall k | 0 <= k < |b| :: b[k] != '/' && b[k] != '@'
  }

  /** `[^/]+` */
  predicate ValidSegment(v: string)
  {
    v != [] && forall k | 0 <= k < |v| :: v[k] != '/'
  }

  /** `\/.*` */
  predicate ValidPath(p: string)
  {
    p != [] && p[0] == '/' && forall k | 0 <= k < |p| :: !IsLineTerminator(p[k])
  }

  function ScopePrefix(scope: Option<string>): (r: string)
    ensures r == [] || r[0] == '@'
  {
    if scope.Some? then "@" + scope.value + "/" else ""
  }

  lemma SegmentEndAt(s: string, i: nat, j: nat)
    requires i <= j <= |s|
    requires forall k | i <= k < j :: s[k] != '/'
    requires j == |s| || s[j] == '/'
    ensures SegmentEnd(s, i) == j
    decreases j - i
  {
    if i < j {
      SegmentEndAt(s, i + 1, j);
    }
  }

  lemma NameEndAt(s: string, i: nat, j: nat)
    requires i <= j <= |s|
    requires forall k | i <= k < j :: s[k] != '/' && s[k] != '@'
    requires j == |s| || s[j] == '/' || s[j] == '@'
    ensures NameEnd(s, i) == j
    decreases j - i
  {
    if i < j {
      NameEndAt(s, i + 1, j);
    }
  }

  /** The name run ends where the base name ends. */
  lemma NameRunOf(pre: string, base: string, rest: string)
    requires ValidBase(base)
    requires rest == [] || rest[0] == '/' || rest[0] == '@'
    ensures NameEnd(pre + base + rest, |pre|) == |pre| + |base|
  {
    var s := pre + base + rest;
    forall k | |pre| <= k < |pre| + |base| ensures s[k] != '/' && s[k] != '@' {
      assert s[k] == base[k - |pre|];
    }
    if rest != [] {
      assert s[|pre| + |base|] == rest[0];
    }
    NameEndAt(s, |pre|, |pre| + |base|);
  }

  /** The version run ends where the version ends. */
  lemma SegmentRunOf(pre: string, v: string, rest: string)
    requires ValidSegment(v)
    requires rest == [] || rest[0] == '/'
    ensures SegmentEnd(pre + v + rest, |pre|) == |pre| + |v|
  {
    var s := pre + v + rest;
    forall k | |pre| <= k < |pre| + |v| ensures s[k] != '/' {
      assert s[k] == v[k - |pre|];
    }
    if rest != [] {
      assert s[|pre| + |v|] == rest[0];
    }
    SegmentEndAt(s, |pre|, |pre| + |v|);
  }

  /** The tail after name and version is read back as the path. */
  lemma MatchTailOf(name: string, version: Option<string>, path: Option<string>)
    requires path.Some? ==> ValidPath(path.value)
    ensures MatchTail(name, version, PathPart(path)) == Some(UrlMatch(name, version, path))
  {
  }

  /** Matching after the name, with a version: both are read back. */
  lemma MatchVersionedOf(pre: string, base: string, v: string, path: Option<string>)
    requires ValidBase(base) && ValidSegment(v)
    requires path.Some? ==> ValidPath(path.value)
    ensures var m := UrlMatch(pre + base, Some(v), path);
      MatchName(FormatPackage(m), |pre|) == Some(m)
  {
    var n := pre + base;
    var t := PathPart(path);
    var s := n + ("@" + v) + t;
    assert FormatPackage(UrlMatch(n, Some(v), path)) == s;
    var p := |n|;
    var q := p + 1 + |v|;
    assert NameEnd(s, |pre|) == p by {
      assert s == pre + base + (("@" + v) + t);
      NameRunOf(pre, base, ("@" + v) + t);
    }
    assert s[..p] == n && s[p] == '@' by {
      Split3(n, "@" + v, t);
    }
    assert SegmentEnd(s, p + 1) == q && s[p + 1..q] == v && s[q..] == t by {
      assert s == (n + "@") + v + t;
      SegmentRunOf(n + "@", v, t);
      Split3(n + "@", v, t);
    }
    assert |pre| < p < |s| && q != p + 1;
    assert MatchName(s, |pre|) == MatchTail(n, Some(v), t);
    MatchTailOf(n, Some(v), path);
  }

  /** Matching after the name, without a version: the path is read back. */
  lemma MatchUnversionedOf(pre: string, base: string, path: Option<string>)
    requires ValidBase(base)
    requires path.Some? ==> ValidPath(path.value)
    ensures var m := UrlMatch(pre + base, None, path);
      MatchName(FormatPackage(m), |pre|) == Some(m)
  {
    var n := pre + base;
    var t := PathPart(path);
    var s := n + [] + t;
    assert FormatPackage(UrlMatch(n, None, path)) == s;
    assert s == pre + base + t;
    NameRunOf(pre, base, t);
    Split3(n, [], t);
    MatchTailOf(n, None, path);
  }

  /** Matching after the name: a version segment and a path are read back. */
  lemma MatchNameOf(pre: string, base: string, version: Option<string>, path: Option<string>)
    requires ValidBase(base)
    requires version.Some? ==> ValidSegment(version.value)
    requires path.Some? ==> ValidPath(path.value)
    ensures var m := UrlMatch(pre + base, version, path);
      MatchName(FormatPackage(m), |pre|) == Some(m)
  {
    if version.Some? {
      MatchVersionedOf(pre, base, version.value, path);
    } else {
      MatchUnversionedOf(pre, base, path);
    }
  }

  /** Parsing undoes formatting: every well-formed name, version and path
      is read back from the text they make up. */
  lemma MatchPackageOfFormat(scope: Option<string>, base: string, version: Option<string>, path: Option<string>)
    requires scope.Some? ==> ValidSegment(scope.value)
    requires ValidBase(base)
    requires version.Some? ==> ValidSegment(version.value)
    requires path.Some? ==> ValidPath(path.value)
    ensures var m := UrlMatch(ScopePrefix(scope) + base, version, path);
      MatchPackage(FormatPackage(m)) == Some(m)
  {
    var pre := ScopePrefix(scope);
    var m := UrlMatch(pre + base, version, path);
    var s := FormatPackage(m);
    MatchNameOf(pre, base, version, path);
    var rest := s[|pre|..];
    assert s == pre + rest;
    if scope.Some? {
      var k := 1 + |scope.value|;
      assert s[0] == '@' && s[k] == '/';
      forall j | 1 <= j < k ensures s[j] != '/' {
        assert s[j] == scope.value[j - 1];
      }
      SegmentEndAt(s, 1, k);
    } else {
      assert s[0] == base[0];
    }
  }

  /** What `MatchTail` captures covers the text it was given. */
  lemma FormatOfMatchTail(name: string, version: Option<string>, rest: string)
    requires MatchTail(name, version, rest).Some?
    ensures var m := MatchTail(name, version, rest).value;
      m.name == name && m.version == version &&
      FormatPackage(m) == name + VersionPart(version) + rest &&
      (m.path.Some? ==> ValidPath(m.path.value))
  {
  }

  /** A name followed by `@version` and the tail, read back. */
  lemma FormatOfVersioned(s: string, p: nat, q: nat)
    requires p + 1 < q <= |s| && s[p] == '@'
    requires forall k | p + 1 <= k < q :: s[k] != '/'
    requires MatchTail(s[..p], Some(s[p + 1..q]), s[q..]).Some?
    ensures var m := MatchTail(s[..p], Some(s[p + 1..q]), s[q..]).value;
      FormatPackage(m) == s && ValidSegment(m.version.value) && (m.path.Some? ==> ValidPath(m.path.value))
  {
    var v := s[p + 1..q];
    FormatOfMatchTail(s[..p], Some(v), s[q..]);
    forall k | 0 <= k < |v| ensures v[k] != '/' {
      assert v[k] == s[p + 1 + k];
    }
    assert s == s[..p] + ("@" + v) + s[q..];
  }

  /** A name followed directly by the tail, read back. */
  lemma FormatOfUnversioned(s: string, p: nat)
    requires p <= |s|
    requires MatchTail(s[..p], None, s[p..]).Some?
    ensures var m := MatchTail(s[..p], None, s[p..]).value;
      FormatPackage(m) == s && m.version.None? && (m.path.Some? ==> ValidPath(m.path.value))
  {
    FormatOfMatchTail(s[..p], None, s[p..]);
    assert s == s[..p] + s[p..];
  }

  /** What `MatchName` captures covers the text it was given. */
  lemma FormatOfMatchName(s: string, from: nat)
    requires from <= |s|
    requires MatchName(s, from).Some?
    ensures FormatPackage(MatchName(s, from).value) == s
    ensures var m := MatchName(s, from).value;
      (m.version.Some? ==> ValidSegment(m.version.value)) && (m.path.Some? ==> ValidPath(m.path.value))
  {
    var p := NameEnd(s, from);
    if p < |s| && s[p] == '@' {
      var q := SegmentEnd(s, p + 1);
      assert q != p + 1 && MatchName(s, from) == MatchTail(s[..p], Some(s[p + 1..q]), s[q..]);
      FormatOfVersioned(s, p, q);
    } else {
      assert MatchName(s, from) == MatchTail(s[..p], None, s[p..]);
      FormatOfUnversioned(s, p);
    }
  }

  /** Formatting undoes parsing: a match covers its text exactly, and what
      it captures has the shape the pattern demands. */
  lemma FormatOfMatchPackage(s: string)
    requires MatchPackage(s).Some?
    ensures FormatPackage(MatchPackage(s).value) == s
    ensures var m := MatchPackage(s).value;
      (m.version.Some? ==> ValidSegment(m.version.value)) && (m.path.Some? ==> ValidPath(m.path.value))
  {
    if s != [] && s[0] == '@' {
      FormatOfMatchName(s, SegmentEnd(s, 1) + 1);
    } else {
      FormatOfMatchName(s, 0);
    }
  }

  /** Formatting undoes parsing on whole request paths: the match covers
      the path after `/` or after `/npm/`. */
  lemma FormatOfMatchUrl(url: string)
    requires MatchUrl(url).Some?
    ensures var m := MatchUrl(url).value;
      url == "/" + FormatPackage(m) || url == "/npm/" + FormatPackage(m)
  {
    if StartsWith(url, "/npm/") && MatchPackage(url[5..]).Some? {
      FormatOfMatchPackage(url[5..]);
      assert url == url[..5] + url[5..];
    } else {
      FormatOfMatchPackage(url[1..]);
      assert url == [url[0]] + url[1..];
    }
  }

  /** After `/npm/`, a text that matches is read as it is. */
  lemma MatchUrlNpm(s: string)
    requires MatchPackage(s).Some?
    ensures MatchUrl("/npm/" + s) == MatchPackage(s)
  {
    assert ("/npm/" + s)[..5] == "/npm/" && ("/npm/" + s)[5..] == s;
  }

  /** After a bare `/`, a text not starting with `npm/` is read as it is. */
  lemma MatchUrlPlain(s: string)
    requires !StartsWith(s, "npm/")
    ensures MatchUrl("/" + s) == MatchPackage(s)
  {
    var url := "/" + s;
    assert url[1..] == s;
    if StartsWith(url, "/npm/") {
      assert false;
    }
  }

  /** A formatted request only starts with `npm/` for the package `npm`
      followed directly by a path. */
  lemma FormatStartingWithNpm(scope: Option<string>, base: string, version: Option<string>, path: Option<string>)
    requires scope.Some? ==> ValidSegment(scope.value)
    requires ValidBase(base)
    requires version.Some? ==> ValidSegment(version.value)
    requires path.Some? ==> ValidPath(path.value)
    requires StartsWith(FormatPackage(UrlMatch(ScopePrefix(scope) + base, version, path)), "npm/")
    ensures scope.None? && base == "npm" && version.None? && path.Some?
  {
    var s := FormatPackage(UrlMatch(ScopePrefix(scope) + base, version, path));
    assert s[..4] == "npm/";
    assert s[0] == 'n' && s[1] == 'p' && s[2] == 'm' && s[3] == '/';
    var pre := ScopePrefix(scope);
    var v := VersionPart(version);
    var t := PathPart(path);
    var w := v + t;
    assert s == pre + base + w;
    assert pre == [];
    assert s == base + w;
    assert w == [] || w[0] == '@' || w[0] == '/';
    assert forall k | 0 <= k < |base| :: s[k] == base[k];
    assert |w| > 0 ==> s[|base|] == w[0];
    assert |base| == 3;
    assert base == s[..3];
    assert w[0] == s[3] == '/';
  }

  /** The `npm/` prefix is optional: a well-formed request reads the same
      with and without it, except for the package `npm` followed directly by
      a path, where a match of what follows the prefix comes first. */
  lemma MatchUrlOfFormat(scope: Option<string>, base: string, version: Option<string>, path: Option<string>)
    requires scope.Some? ==> ValidSegment(scope.value)
    requires ValidBase(base)
    requires version.Some? ==> ValidSegment(version.value)
    requires path.Some? ==> ValidPath(path.value)
    ensures var m := UrlMatch(ScopePrefix(scope) + base, version, path);
      MatchUrl("/npm/" + FormatPackage(m)) == Some(m) &&
      (m.name != "npm" || version.Some? || path.None? ==> MatchUrl("/" + FormatPackage(m)) == Some(m))
  {
    var m := UrlMatch(ScopePrefix(scope) + base, version, path);
    MatchPackageOfFormat(scope, base, version, path);
    MatchUrlNpm(FormatPackage(m));
    if m.name != "npm" || version.Some? || path.None? {
      if StartsWith(FormatPackage(m), "npm/") {
        FormatStartingWithNpm(scope, base, version, path);
      }
      MatchUrlPlain(FormatPackage(m));
    }
  }

  // ---------------------------------------------------------------------
  // Routing

  /** What a request for a package asks for. */
  datatype Mode = EntryPointMode | ListingMode | FileMode(path: string)

  datatype Route =
    | Welcome                                           // exactly "/"
    | Unmatched                                         // the pattern fails: 404 "Not found"
    | Package(name: string, range: string, mode: Mode)

  /** The mode chosen by the path capture (empty when there was none): a
      bare separator lists the package root, no path at all serves the entry
      point, and anything else names a file. */
  function ModeOf(filePath: string): (mode: Mode)
    ensures mode == ListingMode <==> filePath == "/"
    ensures mode == EntryPointMode <==> filePath == []
    ensures mode.FileMode? ==> mode.path == filePath
  {
    if filePath != [] && filePath != "/" then FileMode(filePath)
    else if filePath == "/" then ListingMode
    else EntryPointMode
  }

  /** The handler's dispatch on the request path; a missing version range
      defaults to "latest" and a missing path to "". */
  function RouteOf(url: string): (r: Route)
    ensures r.Welcome? <==> url == "/"
    ensures r.Package? ==> StartsWith(url, "/") && r.name != [] && r.range != []
  {
    if url == "/" then Welcome
    else match MatchUrl(url)
      case None => Unmatched
      case Some(m) =>
        Package(m.name, if m.version.Some? then m.version.value else "latest",
                ModeOf(if m.path.Some? then m.path.value else ""))
  }

  /** A well-formed request path routes to its own package, range and mode,
      behind `/npm/` always and behind a bare `/` whenever the pattern reads
      it back there. */
  lemma RouteOfFormat(scope: Option<string>, base: string, version: Option<string>, path: Option<string>)
    requires scope.Some? ==> ValidSegment(scope.value)
    requires ValidBase(base)
    requires version.Some? ==> ValidSegment(version.value)
    requires path.Some? ==> ValidPath(path.value)
    ensures var name := ScopePrefix(scope) + base;
      RouteOf("/npm/" + FormatPackage(UrlMatch(name, version, path))) ==
        Package(name, if version.Some? then version.value else "latest", ModeOf(if path.Some? then path.value else ""))
    ensures var name := ScopePrefix(scope) + base;
      name != "npm" || version.Some? || path.None? ==>
        RouteOf("/" + FormatPackage(UrlMatch(name, version, path))) ==
          Package(name, if version.Some? then version.value else "latest", ModeOf(if path.Some? then path.value else ""))
  {
    var name := ScopePrefix(scope) + base;
    MatchUrlOfFormat(scope, base, version, path);
    assert |"/" + FormatPackage(UrlMatch(name, version, path))| > 1;
  }

  /** `/name` asks for the entry point of the latest `name`, and `/name/`
      for its listing; this holds for `npm` too, whose `/npm/` the optional
      prefix gives back when nothing follows it. */
  lemma BareRoutes(base: string)
    requires ValidBase(base)
    ensures RouteOf("/" + base) == Package(base, "latest", EntryPointMode)
    ensures RouteOf("/" + base + "/") == Package(base, "latest", ListingMode)
  {
    assert ScopePrefix(None) + base == base;
    assert MatchUrl("/" + base) == Some(UrlMatch(base, None, None)) by {
      MatchUrlOfFormat(None, base, None, None);
      assert FormatPackage(UrlMatch(base, None, None)) == base;
    }
    assert MatchUrl("/" + base + "/") == Some(UrlMatch(base, None, Some("/"))) by {
      assert ValidPath("/");
      assert FormatPackage(UrlMatch(base, None, Some("/"))) == base + "/";
      assert "/" + base + "/" == "/" + (base + "/");
      if base != "npm" {
        MatchUrlOfFormat(None, base, None, Some("/"));
      } else {
        // `/npm/` takes the optional prefix first, finds no name after it,
        // and falls back to reading `npm` as the name.
        MatchPackageOfFormat(None, base, None, Some("/"));
        var url := "/" + base + "/";
        assert url[5..] == [];
        assert MatchPackage([]) == None;
        assert url[1..] == base + "/";
      }
    }
    assert "/" + base != "/" && "/" + base + "/" != "/" by {
      assert |"/" + base| > 1;
    }
  }

  // ---------------------------------------------------------------------
  // One request, with the network replies as parameters

  /** The version manifest fetched for the resolved version: its status,
      the entry-point fields, and `dist.tarball` ("" when absent). */
  datatype RegistryReply = RegistryReply(status: nat, manifest: Manifest, tarballUrl: string)

  /** The tarball fetch and its decoding: the entries the parser yielded,
      and whether the pass ended normally, ended in a gunzip or tar error, or
      never started because the download answered with a non-2xx status. */
  datatype TarballReply =
    | Complete(entries: seq<Entry>)
    | Broken(entries: seq<Entry>, message: string)
    | DownloadFailed(status: nat)

  datatype Response = FileBody(mediaType: MediaType, body: seq<byte>) | ListingHtml(html: string)

  predicate IsOk(status: nat)
  {
    200 <= status < 300
  }

  /** `getFileContent`: a decoding error only matters when it comes before
      the first match, since the promise has settled by then. */
  function FetchFile(tarball: TarballReply, filePath: string): (r: Result<seq<byte>, Failure>)
    ensures r.Ok? ==> !tarball.DownloadFailed?
    ensures r.Ok? ==> exists j | 0 <= j < |tarball.entries| ::
      Matches(tarball.entries[j], filePath) && r.value == tarball.entries[j].data
    ensures r.Err? && r.error.TarballDownloadFailed? <==> tarball.DownloadFailed?
    ensures r.Err? && tarball.Complete? ==> r.error == FileNotFound(filePath)
  {
    match tarball
    case DownloadFailed(s) => Err(TarballDownloadFailed(s))
    case Complete(es) =>
      ExtractedIsFirstMatch(es, filePath);
      Extracted(es, filePath)
    case Broken(es, message) =>
      ExtractedIsFirstMatch(es, filePath);
      if Extracted(es, filePath).Ok? then Extracted(es, filePath) else Err(Unexpected(message))
  }

  /** `getDirectoryListing`: the list only resolves at the end of the pass. */
  function FetchListing(tarball: TarballReply): (r: Result<seq<string>, Failure>)
    ensures r.Ok? <==> tarball.Complete?
    ensures r.Ok? ==> forall p | p in r.value :: IsTopLevel(p)
  {
    match tarball
    case DownloadFailed(s) => Err(TarballDownloadFailed(s))
    case Complete(es) =>
      ListingMembers(es);
      Ok(Listing(es))
    case Broken(_, message) => Err(Unexpected(message))
  }

  /** A file response: the bytes and their sniffed media type. */
  function ServeFile(tarball: TarballReply, filePath: string, rules: TextRules): Result<Response, Failure>
  {
    match FetchFile(tarball, filePath)
    case Err(e) => Err(e)
    case Ok(bytes) => Ok(FileBody(Detect(Some(bytes), rules), bytes))
  }

  /** The body of the handler's `try` block, for a package request whose
      range resolved to `version`. A file request does not look at the
      manifest fetch's status; the other two modes do. */
  function Serve(name: string, version: string, mode: Mode, registry: RegistryReply,
                 tarball: TarballReply, rules: TextRules): (r: Result<Response, Failure>)
    ensures registry.tarballUrl == [] ==> r == Err(NotFound)
    ensures r.Ok? ==> mode.FileMode? || IsOk(registry.status)
    ensures r.Ok? ==> (r.value.ListingHtml? <==> mode.ListingMode?)
  {
    if registry.tarballUrl == [] then Err(NotFound)
    else match mode
      case FileMode(p) => ServeFile(tarball, p, rules)
      case ListingMode =>
        if !IsOk(registry.status) then Err(RegistryRequestFailed(registry.status))
        else (match FetchListing(tarball)
          case Err(e) => Err(e)
          case Ok(files) => Ok(ListingHtml(Render(name, version, files))))
      case EntryPointMode =>
        if !IsOk(registry.status) then Err(RegistryRequestFailed(registry.status))
        else match FindPath(registry.manifest)
          case Err(e) => Err(e)
          case Ok(p) => ServeFile(tarball, p, rules)
  }

  /** The status line of a response, with failures classified by kind. */
  function ResponseStatus(r: Result<Response, Failure>): nat
  {
    if r.Ok? then 200 else Status(r.error)
  }

  /** A served file holds exactly the bytes of the first tarball entry with
      the requested path, labelled with the sniffed type of those bytes. */
  lemma ServedFileIsFirstMatch(name: string, version: string, p: string, registry: RegistryReply,
                               es: seq<Entry>, rules: TextRules)
    requires registry.tarballUrl != []
    requires Serve(name, version, FileMode(p), registry, Complete(es), rules).Ok?
    ensures var r := Serve(name, version, FileMode(p), registry, Complete(es), rules).value;
      r.FileBody? && r.mediaType == Detect(Some(r.body), rules) &&
      exists j | 0 <= j < |es| :: Matches(es[j], p) && r.body == es[j].data &&
        forall k | 0 <= k < j :: !Matches(es[k], p)
  {
    ExtractedIsFirstMatch(es, p);
  }

  /** A missing file is reported as "File not found", which the handler as
      written answers with 500 unless the path itself mentions a marker;
      classified by kind it is a 404. */
  lemma MissingFileEndToEnd(name: string, version: string, p: string, registry: RegistryReply,
                            es: seq<Entry>, rules: TextRules)
    requires registry.tarballUrl != []
    requires forall j | 0 <= j < |es| :: !Matches(es[j], p)
    ensures var r := Serve(name, version, FileMode(p), registry, Complete(es), rules);
      r == Err(FileNotFound(p)) && ResponseStatus(r) == 404 &&
      (!Contains(p, "request failed") && !Contains(p, "404") ==> StatusAsWritten(r.error) == 500)
  {
    ExtractedIsFirstMatch(es, p);
    MissingFileAsWritten(p);
  }

  /** A file request is served whatever the status of the manifest fetch;
      listing and entry-point requests need it to be 2xx. */
  lemma FileModeIgnoresRegistryStatus(name: string, version: string, mode: Mode, registry: RegistryReply,
                                      status: nat, tarball: TarballReply, rules: TextRules)
    requires registry.tarballUrl != []
    ensures mode.FileMode? ==>
      Serve(name, version, mode, registry.(status := status), tarball, rules) == Serve(name, version, mode, registry, tarball, rules)
    ensures !mode.FileMode? && !IsOk(status) ==>
      Serve(name, version, mode, registry.(status := status), tarball, rules) == Err(RegistryRequestFailed(status))
  {
  }

  /** A listing request renders the top-level files of the tarball, in
      archive order, under `name@version`. */
  lemma ListingEndToEnd(name: string, version: string, registry: RegistryReply, es: seq<Entry>, rules: TextRules)
    requires registry.tarballUrl != [] && IsOk(registry.status)
    ensures Serve(name, version, ListingMode, registry, Complete(es), rules) == Ok(ListingHtml(Render(name, version, Listing(es))))
  {
  }

  /** An entry-point request serves whatever file `findPath` names. */
  lemma EntryPointEndToEnd(name: string, version: string, registry: RegistryReply,
                           tarball: TarballReply, rules: TextRules)
    requires registry.tarballUrl != [] && IsOk(registry.status)
    ensures FindPath(registry.manifest).Ok? ==>
      Serve(name, version, EntryPointMode, registry, tarball, rules) == ServeFile(tarball, FindPath(registry.manifest).value, rules)
    ensures FindPath(registry.manifest).Err? ==>
      Serve(name, version, EntryPointMode, registry, tarball, rules) == Err(FindPath(registry.manifest).error)
  {
  }

  /** A decoding error after the requested entry changes nothing: the file
      is served as if the archive had ended well. */
  lemma BreakAfterMatchIsHarmless(es: seq<Entry>, rest: seq<Entry>, message: string, p: string)
    requires Extracted(es, p).Ok?
    ensures FetchFile(Broken(es, message), p) == FetchFile(Complete(es + rest), p) == Extracted(es, p)
  {
    ExtractedAppend(es, rest, p);
  }
}

=== FILE: listing.dfy ===
/** The HTML page the gateway answers a directory request with: a fixed
    head, a `<h1>` naming `package@version`, and one link per listed path in
    the order given, each path shown with one leading separator removed.
    Paths are interpolated as they are, without escaping. */
module ListingPage {
  import opened Common
  import opened Paths

  /** JavaScript `xs.join(sep)`. */
  function Join(xs: seq<string>, sep: string): string
  {
    if xs == [] then ""
    else if |xs| == 1 then xs[0]
    else xs[0] + sep + Join(xs[1..], sep)
  }

  /** The list item for one listed path: link target and link text are the
      path without its leading separator. */
  function Item(file: string): string
  {
    var name := StripLeadingSlash(file);
    "<li><a href=\"" + name + "\">" + name + "</a></li>"
  }

  /** The items of a listing, in the order of the paths. */
  function Items(files: seq<string>): seq<string>
  {
    seq(|files|, i requires 0 <= i < |files| => Item(files[i]))
  }

  /** The lines of the page above the items; line 7 is the title. */
  function HeadLines(title: string): seq<string>
  {
    ["<!DOCTYPE HTML>", "<html>", "<head>", "<meta charset=\"utf-8\">", "<title>BYR_Achieve</title>",
     "</head>", "<body>", "<h1>" + title + "</h1>", "<hr>", "<ul>"]
  }

  /** The lines of the page below the items. */
  const TailLines: seq<string> := ["</ul>", "<hr>", "</body>", "</html>"]

  /** `generateDirectoryListing`: the page template, written line by line,
      with the items joined by newlines in the middle. */
  function Render(packageName: string, version: string, files: seq<string>): (page: string)
    ensures StartsWith(page, "<!DOCTYPE HTML>\n")
  {
    Join(HeadLines(packageName + "@" + version) + [Join(Items(files), "\n")] + TailLines, "\n")
  }

  /** Cuts a text at every newline (JavaScript `s.split("\n")`). */
  function Lines(s: string): (r: seq<string>)
    ensures r != []
  {
    if s == [] then [""]
    else
      var rest := Lines(s[1..]);
      if s[0] == '\n' then [""] + rest else [[s[0]] + rest[0]] + rest[1..]
  }

  /** A text without newlines is one line. */
  lemma {:induction false} LinesOfLine(a: string)
    requires '\n' !in a
    ensures Lines(a) == [a]
  {
    if a != [] {
      assert '\n' !in a[1..];
      LinesOfLine(a[1..]);
      assert [a[0]] + a[1..] == a;
    }
  }

  /** Cutting after a first line that holds no newline. */
  lemma {:induction false} LinesCons(a: string, b: string)
    requires '\n' !in a
    ensures Lines(a + "\n" + b) == [a] + Lines(b)
  {
    if a == [] {
      assert a + "\n" + b == "\n" + b;
      assert ("\n" + b)[1..] == b;
    } else {
      assert '\n' !in a[1..];
      LinesCons(a[1..], b);
      assert (a + "\n" + b)[1..] == a[1..] + "\n" + b;
      assert [a[0]] + a[1..] == a;
    }
  }

  /** Splitting undoes joining, as long as no piece holds a newline. */
  lemma {:induction false} LinesJoin(xs: seq<string>)
    requires xs != []
    requires OneLineEach(xs)
    ensures Lines(Join(xs, "\n")) == xs
  {
    if |xs| == 1 {
      LinesOfLine(xs[0]);
    } else {
      LinesJoin(xs[1..]);
      LinesCons(xs[0], Join(xs[1..], "\n"));
      assert [xs[0]] + xs[1..] == xs;
    }
  }

  /** Joining two non-empty runs of pieces. */
  lemma {:induction false} JoinAppend(xs: seq<string>, ys: seq<string>, sep: string)
    requires xs != [] && ys != []
    ensures Join(xs + ys, sep) == Join(xs, sep) + sep + Join(ys, sep)
  {
    if |xs| == 1 {
      assert (xs + ys)[0] == xs[0] && (xs + ys)[1..] == ys;
    } else {
      JoinAppend(xs[1..], ys, sep);
      assert (xs + ys)[0] == xs[0] && (xs + ys)[1..] == xs[1..] + ys;
    }
  }

  /** A joined run in the middle of a join can be spliced in. */
  lemma JoinSplice(a: seq<string>, b: seq<string>, c: seq<string>, sep: string)
    requires a != [] && b != [] && c != []
    ensures Join(a + [Join(b, sep)] + c, sep) == Join(a + b + c, sep)
  {
    var j := Join(b, sep);
    assert Join(a + [j] + c, sep) == Join(a, sep) + sep + (j + sep + Join(c, sep)) by {
      assert a + [j] + c == a + ([j] + c);
      JoinAppend(a, [j] + c, sep);
      JoinAppend([j], c, sep);
    }
    assert Join(a + b + c, sep) == Join(a, sep) + sep + (j + sep + Join(c, sep)) by {
      assert a + b + c == a + (b + c);
      JoinAppend(a, b + c, sep);
      JoinAppend(b, c, sep);
    }
  }

  /** No item spreads over several lines when its path has no newline. */
  lemma ItemIsOneLine(file: string)
    requires '\n' !in file
    ensures '\n' !in Item(file)
  {
    var name := StripLeadingSlash(file);
    assert '\n' !in name by {
      if Rooted(file) {
        assert file == "/" + name;
      }
    }
    var item := "<li><a href=\"" + name + "\">" + name + "</a></li>";
    assert item == Item(file);
    assert '\n' !in "<li><a href=\"" && '\n' !in "\">" && '\n' !in "</a></li>";
  }

  /** None of the pieces holds a newline. */
  predicate OneLineEach(xs: seq<string>)
  {
    forall i | 0 <= i < |xs| :: '\n' !in xs[i]
  }

  lemma OneLineEachAppend(xs: seq<string>, ys: seq<string>)
    requires OneLineEach(xs) && OneLineEach(ys)
    ensures OneLineEach(xs + ys)
  {
    forall i | 0 <= i < |xs + ys| ensures '\n' !in (xs + ys)[i] {
      if i >= |xs| {
        assert (xs + ys)[i] == ys[i - |xs|];
      }
    }
  }

  lemma FixedLinesAreLines(title: string)
    requires '\n' !in title
    ensures OneLineEach(HeadLines(title)) && OneLineEach(TailLines)
  {
  }

  lemma ItemsAreLines(files: seq<string>)
    requires OneLineEach(files)
    ensures OneLineEach(Items(files))
  {
    forall i | 0 <= i < |files| ensures '\n' !in Items(files)[i] {
      ItemIsOneLine(files[i]);
    }
  }

  /** The page is the join of its lines. */
  lemma RenderIsJoinOfLines(packageName: string, version: string, files: seq<string>)
    ensures Render(packageName, version, files) ==
      Join(HeadLines(packageName + "@" + version) + (if files == [] then [""] else Items(files)) + TailLines, "\n")
  {
    var head := HeadLines(packageName + "@" + version);
    if files == [] {
      assert Join(Items(files), "\n") == "";
    } else {
      JoinSplice(head, Items(files), TailLines, "\n");
    }
  }

  /** The page, line by line: the fixed head with `<h1>package@version</h1>`
      on line 7, then exactly one item per path in the order given (a
      single blank line when there are none), then the fixed tail. */
  lemma RenderLines(packageName: string, version: string, files: seq<string>)
    requires '\n' !in packageName && '\n' !in version
    requires OneLineEach(files)
    ensures Lines(Render(packageName, version, files)) ==
      HeadLines(packageName + "@" + version) + (if files == [] then [""] else Items(files)) + TailLines
  {
    var title := packageName + "@" + version;
    assert '\n' !in title;
    var middle := if files == [] then [""] else Items(files);
    ItemsAreLines(files);
    assert OneLineEach(middle);
    FixedLinesAreLines(title);
    OneLineEachAppend(HeadLines(title), middle);
    OneLineEachAppend(HeadLines(title) + middle, TailLines);
    RenderIsJoinOfLines(packageName, version, files);
    LinesJoin(HeadLines(title) + middle + TailLines);
  }

  /** What a reader of the page sees: the title line, and for every path
      its own line linking to the path without its leading separator. */
  lemma RenderedLinks(packageName: string, version: string, files: seq<string>, i: nat)
    requires '\n' !in packageName && '\n' !in version
    requires OneLineEach(files)
    requires i < |files|
    ensures var lines := Lines(Render(packageName, version, files));
      |lines| == 14 + |files| &&
      lines[7] == "<h1>" + packageName + "@" + version + "</h1>" &&
      lines[10 + i] == "<li><a href=\"" + StripLeadingSlash(files[i]) + "\">" + StripLeadingSlash(files[i]) + "</a></li>"
  {
    RenderLines(packageName, version, files);
  }
}

=== FILE: manifest.dfy ===
/** Entry-point selection: the file served when a request names a package but
    no path inside it. The manifest's `jsdelivr` field wins, then the string
    (or the `default` of the object) under `exports["."]`, then `main`; a field
    counts only when JavaScript deems it truthy, so an empty string is as good
    as absent. */
module EntryPoint {
  import opened Common
  import opened Paths
  import opened Failures

  /** A value as `JSON.parse` produces it. */
  datatype Json =
    | Null
    | Bool(b: bool)
    | Number(n: real)
    | Str(s: string)
    | Array(items: seq<Json>)
    | Object(fields: map<string, Json>)

  /** JavaScript truthiness of a JSON value. */
  predicate Truthy(v: Json)
  {
    match v
    case Null => false
    case Bool(b) => b
    case Number(n) => n != 0.0
    case Str(s) => s != []
    case Array(_) => true
    case Object(_) => true
  }

  /** A property read whose result is truthy; `None` is `undefined`. */
  predicate Present(v: Option<Json>)
  {
    v.Some? && Truthy(v.value)
  }

  /** Property access `v[key]`: only objects carry the named properties read
      here; on any other value the read gives `undefined`. */
  function Property(v: Json, key: string): Option<Json>
  {
    if v.Object? && key in v.fields then Some(v.fields[key]) else None
  }

  /** The fields of a package manifest that entry-point selection reads;
      `None` is a field the manifest does not have. */
  datatype Manifest = Manifest(jsdelivr: Option<Json>, exports: Option<Json>, main: Option<Json>)

  /** `ensureLeadingSlash` applied to a manifest value: a string gets its
      leading separator; any other value has no `startsWith` and throws. */
  function RootedValue(v: Json): (r: Result<string, Failure>)
    ensures r.Ok? <==> v.Str?
    ensures r.Ok? ==> Rooted(r.value) && (r.value == v.s || r.value == "/" + v.s)
    ensures r.Err? ==> r.error == NotAFunction
  {
    if v.Str? then Ok(EnsureLeadingSlash(v.s)) else Err(NotAFunction)
  }

  /** The value `exports["."]` contributes, if it contributes one: the
      string itself, or the truthy `default` of an object. */
  function ExportsEntry(m: Manifest): Option<Json>
  {
    if Present(m.exports) && Present(Property(m.exports.value, ".")) then
      var e := Property(m.exports.value, ".").value;
      if e.Str? then Some(e)
      else if (e.Object? || e.Array?) && Present(Property(e, "default")) then Property(e, "default")
      else None
    else None
  }

  /** `findPath`: the first truthy candidate in the order jsdelivr, exports,
      main, with a leading separator; "404 Not Found" when there is none. */
  function FindPath(m: Manifest): (r: Result<string, Failure>)
    ensures r.Ok? ==> Rooted(r.value)
    ensures r.Err? ==> r.error in {NotFound, NotAFunction}
  {
    if Present(m.jsdelivr) then RootedValue(m.jsdelivr.value)
    else if ExportsEntry(m).Some? then RootedValue(ExportsEntry(m).value)
    else if Present(m.main) then RootedValue(m.main.value)
    else Err(NotFound)
  }

  /** A truthy `jsdelivr` makes `exports` and `main` irrelevant. */
  lemma JsdelivrWins(m: Manifest, exports: Option<Json>, main: Option<Json>)
    requires Present(m.jsdelivr)
    ensures FindPath(m.(exports := exports, main := main)) == FindPath(m) == RootedValue(m.jsdelivr.value)
  {
  }

  /** Without `jsdelivr`, a usable `exports["."]` makes `main` irrelevant:
      a string is served, and so is the `default` of an object. */
  lemma ExportsBeforeMain(m: Manifest, main: Option<Json>)
    requires !Present(m.jsdelivr)
    requires m.exports.Some? && m.exports.value.Object? && "." in m.exports.value.fields
    ensures var e := m.exports.value.fields["."];
      (e.Str? && e.s != [] ==> FindPath(m.(main := main)) == Ok(EnsureLeadingSlash(e.s))) &&
      (e.Object? && "default" in e.fields && e.fields["default"].Str? && e.fields["default"].s != [] ==>
        FindPath(m.(main := main)) == Ok(EnsureLeadingSlash(e.fields["default"].s)))
  {
  }

  /** `main` is served when neither earlier field gives a candidate. */
  lemma MainIsLastResort(m: Manifest, main: string)
    requires !Present(m.jsdelivr) && ExportsEntry(m).None? && main != []
    ensures FindPath(m.(main := Some(Str(main)))) == Ok(EnsureLeadingSlash(main))
  {
  }

  /** "404 Not Found" is thrown exactly when no field gives a candidate. */
  lemma NoEntryPoint(m: Manifest)
    ensures FindPath(m) == Err(NotFound) <==> !Present(m.jsdelivr) && ExportsEntry(m).None? && !Present(m.main)
    ensures FindPath(m) == Err(NotFound) ==> StatusAsWritten(FindPath(m).error) == 404
  {
    if FindPath(m) == Err(NotFound) {
      MissingEntryPointIs404();
    }
  }

  /** JavaScript truthiness: an empty string is as good as an absent field,
      for `jsdelivr`, `main`, `exports["."]` and its `default` alike. */
  lemma EmptyStringIsAbsent(m: Manifest)
    ensures FindPath(m.(jsdelivr := Some(Str("")))) == FindPath(m.(jsdelivr := None))
    ensures FindPath(m.(main := Some(Str("")))) == FindPath(m.(main := None))
    ensures FindPath(m.(exports := Some(Object(map["." := Str("")])))) == FindPath(m.(exports := None))
    ensures FindPath(m.(exports := Some(Object(map["." := Object(map["default" := Str("")])])))) == FindPath(m.(exports := None))
  {
  }
}

=== FILE: paths.dfy ===
/** Path strings of the gateway: the leading-slash convention for in-package
    paths, the renaming of archive entries out of the `package/` directory that
    npm tarballs put every file under, and the "direct child of the package
    root" test of the directory listing. */
module Paths {
  import opened Common

  /** The directory every entry of an npm tarball is nested under. */
  const PackageDir: string := "package/"

  /** A path that starts with the separator. */
  predicate Rooted(p: string)
  {
    StartsWith(p, "/")
  }

  /** `ensureLeadingSlash`: prefix a `/` unless the path already has one.
      The result is rooted, and the path itself is kept, at most behind one
      added separator. */
  function EnsureLeadingSlash(p: string): (r: string)
    ensures Rooted(r)
    ensures r == p || r == "/" + p
    ensures Rooted(p) <==> r == p
  {
    if StartsWith(p, "/") then p else "/" + p
  }

  /** The file name the listing page shows: the path with one leading `/`
      removed, if it has one. */
  function StripLeadingSlash(p: string): (r: string)
    ensures Rooted(p) <==> "/" + r == p
    ensures !Rooted(p) <==> r == p
  {
    if StartsWith(p, "/") then p[1..] else p
  }

  /** Entry-path normalisation applied to every tarball entry: `package/x`
      becomes `/x`; any other path just gets a leading separator. */
  function NormalizeEntryPath(raw: string): (r: string)
    ensures Rooted(r)
  {
    if StartsWith(raw, PackageDir) then "/" + raw[|PackageDir|..] else EnsureLeadingSlash(raw)
  }

  /** The listing filter `/^\/[^\/]*$/`: a separator, then no other one. */
  predicate IsTopLevel(p: string)
  {
    Rooted(p) && forall i | 1 <= i < |p| :: p[i] != '/'
  }

  /** Adding the separator twice adds it once. */
  lemma EnsureLeadingSlashIdempotent(p: string)
    ensures EnsureLeadingSlash(EnsureLeadingSlash(p)) == EnsureLeadingSlash(p)
  {
  }

  /** The renderer's stripping undoes `EnsureLeadingSlash` on a path that
      needed the separator, and `EnsureLeadingSlash` undoes the stripping on a
      path with exactly one leading separator. */
  lemma StripUndoesEnsure(p: string)
    ensures !Rooted(p) ==> StripLeadingSlash(EnsureLeadingSlash(p)) == p
    ensures Rooted(p) && !Rooted(p[1..]) ==> EnsureLeadingSlash(StripLeadingSlash(p)) == p
  {
    if !Rooted(p) {
      assert ("/" + p)[1..] == p;
    }
  }

  /** An entry `package/x` is served under `/x`, whatever `x` is. */
  lemma NormalizePackageEntry(x: string)
    ensures NormalizeEntryPath(PackageDir + x) == "/" + x
  {
    assert (PackageDir + x)[..|PackageDir|] == PackageDir;
    assert (PackageDir + x)[|PackageDir|..] == x;
  }

  /** An entry outside `package/` keeps its own path, rooted. */
  lemma NormalizeOtherEntry(raw: string)
    requires !StartsWith(raw, PackageDir)
    ensures NormalizeEntryPath(raw) == EnsureLeadingSlash(raw)
    ensures Rooted(raw) ==> NormalizeEntryPath(raw) == raw
  {
  }

  /** A top-level path is a separator followed by one slash-free name. */
  lemma TopLevelIsOneName(name: string)
    ensures IsTopLevel("/" + name) <==> '/' !in name
  {
    var p := "/" + name;
    assert p[1..] == name;
    if '/' in name {
      var j :| 0 <= j < |name| && name[j] == '/';
      assert p[j + 1] == '/';
    }
  }
}

=== FILE: sniff.dfy ===
/** Content sniffing: the media type the gateway announces for an extracted
    file, decided from the file's bytes alone by a fixed-priority cascade. A
    missing or very short buffer is opaque; then come magic numbers, compared
    on the upper-case hexadecimal spelling of the first 16 bytes; then text
    heuristics on the first 256 bytes; and last a printable-byte scan of the
    first 512 bytes. */
module Sniff {
  import opened Common

  datatype MediaType =
    | OctetStream | Jpeg | Png | Gif | Pdf | Zip | Gzip | Rar | Webp
    | Html | Xml | Json | JavaScript | Css | Svg | Markdown | PlainText
  {
    /** The `Content-Type` value the server sends. */
    function Name(): string
    {
      match this
      case OctetStream => "application/octet-stream"
      case Jpeg => "image/jpeg"
      case Png => "image/png"
      case Gif => "image/gif"
      case Pdf => "application/pdf"
      case Zip => "application/zip"
      case Gzip => "application/gzip"
      case Rar => "application/x-rar-compressed"
      case Webp => "image/webp"
      case Html => "text/html"
      case Xml => "application/xml"
      case Json => "application/json"
      case JavaScript => "application/javascript"
      case Css => "text/css"
      case Svg => "image/svg+xml"
      case Markdown => "text/markdown"
      case PlainText => "text/plain"
    }
  }

  // ---------------------------------------------------------------------
  // Hexadecimal spelling of bytes

  /** An upper-case hexadecimal digit. */
  function HexDigit(n: nat): char
    requires n < 16
  {
    if n < 10 then ('0' as int + n) as char else ('A' as int + n - 10) as char
  }

  /** The value of an upper-case hexadecimal digit. */
  function HexValue(c: char): (v: nat)
    ensures v < 16
  {
    if '0' <= c <= '9' then c as int - '0' as int
    else if 'A' <= c <= 'F' then c as int - 'A' as int + 10
    else 0
  }

  /** Character `i` of the spelling: the high nibble of byte `i / 2` at
      even positions, its low nibble at odd ones. */
  function HexChar(b: seq<byte>, i: nat): char
    requires i < 2 * |b|
  {
    if i % 2 == 0 then HexDigit(b[i / 2] / 16) else HexDigit(b[i / 2] % 16)
  }

  /** `buffer.toString('hex').toUpperCase()`: two digits per byte, high
      nibble first. */
  function Hex(b: seq<byte>): (h: string)
    ensures |h| == 2 * |b|
  {
    seq(2 * |b|, i requires 0 <= i < 2 * |b| => HexChar(b, i))
  }

  /** The spelling of a non-empty buffer: its first byte's two digits, then
      the spelling of the rest. */
  lemma HexCons(b: seq<byte>)
    requires b != []
    ensures Hex(b) == [HexDigit(b[0] / 16), HexDigit(b[0] % 16)] + Hex(b[1..])
  {
    var r := [HexDigit(b[0] / 16), HexDigit(b[0] % 16)] + Hex(b[1..]);
    forall i | 2 <= i < 2 * |b| ensures Hex(b)[i] == r[i] {
      assert (i - 2) / 2 == i / 2 - 1 && (i - 2) % 2 == i % 2;
      assert b[1..][(i - 2) / 2] == b[i / 2];
    }
  }

  /** Reads bytes back from their hexadecimal spelling. */
  function Unhex(h: string): (b: seq<byte>)
    requires |h| % 2 == 0
    ensures |b| == |h| / 2
  {
    if h == [] then [] else [16 * HexValue(h[0]) + HexValue(h[1])] + Unhex(h[2..])
  }

  /** Hex spelling loses nothing: reading it back gives the bytes. */
  lemma {:induction false} UnhexHex(b: seq<byte>)
    ensures Unhex(Hex(b)) == b
  {
    if b != [] {
      var h := Hex(b);
      HexCons(b);
      assert h[2..] == Hex(b[1..]);
      UnhexHex(b[1..]);
      assert HexValue(h[0]) == b[0] / 16 && HexValue(h[1]) == b[0] % 16;
    }
  }

  /** The spelling of a concatenation is the concatenation of the spellings. */
  lemma HexAppend(a: seq<byte>, c: seq<byte>)
    ensures Hex(a + c) == Hex(a) + Hex(c)
  {
    var l, r := Hex(a + c), Hex(a) + Hex(c);
    forall i | 0 <= i < |l| ensures l[i] == r[i] {
      if i < 2 * |a| {
        assert (a + c)[i / 2] == a[i / 2];
      } else {
        var k := i - 2 * |a|;
        assert k / 2 == i / 2 - |a| && k % 2 == i % 2;
        assert (a + c)[i / 2] == c[k / 2];
      }
    }
  }

  /** Comparing a hex spelling against the spelling of a signature is
      comparing the bytes themselves. */
  lemma HexStartsWith(b: seq<byte>, sig: seq<byte>)
    requires |sig| <= |b|
    ensures StartsWith(Hex(b), Hex(sig)) <==> StartsWith(b, sig)
  {
    var k := |sig|;
    assert b == b[..k] + b[k..];
    HexAppend(b[..k], b[k..]);
    assert Hex(b)[..2 * k] == Hex(b[..k]);
    if Hex(b[..k]) == Hex(sig) {
      UnhexHex(b[..k]);
      UnhexHex(sig);
    }
  }

  // ---------------------------------------------------------------------
  // Magic numbers

  const JpegMagic: seq<byte> := [0xFF, 0xD8, 0xFF]
  const PngMagic: seq<byte> := [0x89, 0x50, 0x4E, 0x47]
  const GifMagic: seq<byte> := [0x47, 0x49, 0x46, 0x38]
  const PdfMagic: seq<byte> := [0x25, 0x50, 0x44, 0x46]
  const ZipMagic: seq<byte> := [0x50, 0x4B, 0x03, 0x04]
  const GzipMagic: seq<byte> := [0x1F, 0x8B, 0x08]
  const RarMagic: seq<byte> := [0x52, 0x61, 0x72, 0x21]
  const RiffMagic: seq<byte> := [0x52, 0x49, 0x46, 0x46]
  const WebpMagic: seq<byte> := [0x57, 0x45, 0x42, 0x50]

  /** JavaScript `s.substring(from, to)` for `from <= to`: both ends are
      clamped to the length of `s`. */
  function Substring(s: string, from: nat, to: nat): (r: string)
    requires from <= to
    ensures |r| == Min(to, |s|) - Min(from, |s|)
  {
    s[Min(from, |s|)..Min(to, |s|)]
  }

  /** The magic-number stage as the server writes it, on the hex spelling
      of the first 16 bytes. */
  function HexMagic(hex: string): Option<MediaType>
  {
    if StartsWith(hex, "FFD8FF") then Some(Jpeg)
    else if StartsWith(hex, "89504E47") then Some(Png)
    else if StartsWith(hex, "47494638") then Some(Gif)
    else if StartsWith(hex, "25504446") then Some(Pdf)
    else if StartsWith(hex, "504B0304") then Some(Zip)
    else if StartsWith(hex, "1F8B08") then Some(Gzip)
    else if StartsWith(hex, "52617221") then Some(Rar)
    else if StartsWith(hex, "52494646") && Substring(hex, 16, 24) == "57454250" then Some(Webp)
    else None
  }

  /** The magic-number stage stated on the bytes: the first signature, in
      the server's order, that the buffer starts with; WEBP is a RIFF header
      whose bytes 8 to 11 spell "WEBP". */
  function MagicNumber(b: seq<byte>): Option<MediaType>
  {
    if StartsWith(b, JpegMagic) then Some(Jpeg)
    else if StartsWith(b, PngMagic) then Some(Png)
    else if StartsWith(b, GifMagic) then Some(Gif)
    else if StartsWith(b, PdfMagic) then Some(Pdf)
    else if StartsWith(b, ZipMagic) then Some(Zip)
    else if StartsWith(b, GzipMagic) then Some(Gzip)
    else if StartsWith(b, RarMagic) then Some(Rar)
    else if StartsWith(b, RiffMagic) && |b| >= 12 && b[8..12] == WebpMagic then Some(Webp)
    else None
  }

  /** The spelling of one byte. */
  function HexPair(x: byte): string
  {
    [HexDigit(x / 16), HexDigit(x % 16)]
  }

  lemma HexThree(x: byte, y: byte, z: byte)
    ensures Hex([x, y, z]) == HexPair(x) + HexPair(y) + HexPair(z)
  {
    HexCons([x, y, z]);
    HexCons([y, z]);
    HexCons([z]);
    assert [x, y, z][1..] == [y, z] && [y, z][1..] == [z] && [z][1..] == [];
  }

  lemma HexFour(w: byte, x: byte, y: byte, z: byte)
    ensures Hex([w, x, y, z]) == HexPair(w) + HexPair(x) + HexPair(y) + HexPair(z)
  {
    HexCons([w, x, y, z]);
    assert [w, x, y, z][1..] == [x, y, z];
    HexThree(x, y, z);
  }

  /** The hex literals of the server are the spellings of the signatures. */
  lemma SignatureSpellings()
    ensures Hex(JpegMagic) == "FFD8FF" && Hex(PngMagic) == "89504E47"
    ensures Hex(GifMagic) == "47494638" && Hex(PdfMagic) == "25504446"
    ensures Hex(ZipMagic) == "504B0304" && Hex(GzipMagic) == "1F8B08"
    ensures Hex(RarMagic) == "52617221" && Hex(RiffMagic) == "52494646"
    ensures Hex(WebpMagic) == "57454250"
  {
    assert Hex(JpegMagic) == "FFD8FF" by { HexThree(0xFF, 0xD8, 0xFF); }
    assert Hex(PngMagic) == "89504E47" by { HexFour(0x89, 0x50, 0x4E, 0x47); }
    assert Hex(GifMagic) == "47494638" by { HexFour(0x47, 0x49, 0x46, 0x38); }
    assert Hex(PdfMagic) == "25504446" by { HexFour(0x25, 0x50, 0x44, 0x46); }
    assert Hex(ZipMagic) == "504B0304" by { HexFour(0x50, 0x4B, 0x03, 0x04); }
    assert Hex(GzipMagic) == "1F8B08" by { HexThree(0x1F, 0x8B, 0x08); }
    assert Hex(RarMagic) == "52617221" by { HexFour(0x52, 0x61, 0x72, 0x21); }
    assert Hex(RiffMagic) == "52494646" by { HexFour(0x52, 0x49, 0x46, 0x46); }
    assert Hex(WebpMagic) == "57454250" by { HexFour(0x57, 0x45, 0x42, 0x50); }
  }

  /** A signature of at most four bytes is matched by the 16-byte header of
      a buffer of at least four bytes exactly when the buffer starts with it. */
  lemma HeaderStartsWith(b: seq<byte>, sig: seq<byte>)
    requires 4 <= |b| && |sig| <= 4
    ensures StartsWith(Hex(b[..Min(|b|, 16)]), Hex(sig)) <==> StartsWith(b, sig)
  {
    var m := Min(|b|, 16);
    HexStartsWith(b[..m], sig);
    assert b[..m][..|sig|] == b[..|sig|];
  }

  /** A slice of the spelling is the spelling of the slice. */
  lemma HexSlice(b: seq<byte>, i: nat, j: nat)
    requires i <= j <= |b|
    ensures Hex(b)[2 * i..2 * j] == Hex(b[i..j])
  {
    var l, r := Hex(b)[2 * i..2 * j], Hex(b[i..j]);
    forall k | 0 <= k < |r| ensures l[k] == r[k] {
      assert (2 * i + k) / 2 == i + k / 2 && (2 * i + k) % 2 == k % 2;
      assert b[i..j][k / 2] == b[i + k / 2];
    }
  }

  /** Characters 16 to 24 of the header spelling are the spelling of bytes
      8 to 11, and are too short to match anything when the buffer has fewer
      than 12 bytes. */
  lemma HeaderWebpWindow(b: seq<byte>)
    requires 4 <= |b|
    ensures Substring(Hex(b[..Min(|b|, 16)]), 16, 24) == Hex(WebpMagic) <==> |b| >= 12 && b[8..12] == WebpMagic
  {
    var m := Min(|b|, 16);
    var h := Hex(b[..m]);
    if m >= 12 {
      HexSlice(b[..m], 8, 12);
      assert b[..m][8..12] == b[8..12];
      assert Substring(h, 16, 24) == Hex(b[8..12]);
      if Hex(b[8..12]) == Hex(WebpMagic) {
        UnhexHex(b[8..12]);
        UnhexHex(WebpMagic);
      }
    } else {
      assert |Substring(h, 16, 24)| < 8;
    }
  }

  /** The server's hex comparison decides exactly what the byte-level
      signature table decides. */
  lemma HexMagicIsMagicNumber(b: seq<byte>)
    requires 4 <= |b|
    ensures HexMagic(Hex(b[..Min(|b|, 16)])) == MagicNumber(b)
  {
    SignatureSpellings();
    HeaderStartsWith(b, JpegMagic);
    HeaderStartsWith(b, PngMagic);
    HeaderStartsWith(b, GifMagic);
    HeaderStartsWith(b, PdfMagic);
    HeaderStartsWith(b, ZipMagic);
    HeaderStartsWith(b, GzipMagic);
    HeaderStartsWith(b, RarMagic);
    HeaderStartsWith(b, RiffMagic);
    HeaderWebpWindow(b);
  }

  // ---------------------------------------------------------------------
  // Text heuristics and the printable-byte scan

  /** The regular-expression and JSON rules of the text stage. They depend
      on UTF-8 decoding, lower-casing, a regex engine and `JSON.parse`, so
      each is an abstract predicate; all but `parsesAsJson` see the first 256
      bytes of the buffer, `parsesAsJson` sees the whole buffer. */
  datatype TextRules = TextRules(
    html: seq<byte> -> bool,          // an <html, doctype, <head>, <body> or <title> tag
    xml: seq<byte> -> bool,           // an XML declaration or a namespaced tag
    jsonOpener: seq<byte> -> bool,    // the trimmed text starts with '{' or '['
    parsesAsJson: seq<byte> -> bool,  // the whole buffer is one JSON document
    script: seq<byte> -> bool,        // import/export/function/class/var/let/const or a comment first
    css: seq<byte> -> bool,           // @import url, a comment, or `body {` first
    svg: seq<byte> -> bool,           // an <svg xmlns= tag
    markdown: seq<byte> -> bool)      // a `# heading` or `**bold**` first

  /** A byte the scan accepts: tab, line feed, carriage return, or anything
      from space upwards (bytes of 127 and above included). */
  predicate IsTextByte(x: byte)
  {
    x >= 32 || x == 9 || x == 10 || x == 13
  }

  /** The printable-byte test: every one of the first 512 bytes is accepted. */
  predicate IsText(b: seq<byte>)
  {
    forall i | 0 <= i < Min(|b|, 512) :: IsTextByte(b[i])
  }

  /** `isTextBuffer`: scan the first 512 bytes, stopping at the first
      control byte that is not tab, line feed or carriage return. */
  method IsTextBuffer(buffer: seq<byte>) returns (r: bool)
    ensures r <==> forall i | 0 <= i < Min(|buffer|, 512) :: IsTextByte(buffer[i])
  {
    var chunk := buffer[..Min(|buffer|, 512)];
    for i := 0 to |chunk|
      invariant forall j | 0 <= j < i :: IsTextByte(chunk[j])
    {
      var x := chunk[i];
      if x < 32 && x != 9 && x != 10 && x != 13 {
        return false;
      }
    }
    return true;
  }

  /** Bytes past the first 512 never change the scan. */
  lemma IsTextIgnoresTail(b: seq<byte>, tail: seq<byte>)
    requires |b| >= 512
    ensures IsText(b + tail) == IsText(b)
  {
    assert forall i | 0 <= i < 512 :: (b + tail)[i] == b[i];
  }

  /** The text stage: the heuristics in the server's order, then the scan. */
  function TextStage(b: seq<byte>, rules: TextRules): MediaType
  {
    var head := b[..Min(|b|, 256)];
    if rules.html(head) then Html
    else if rules.xml(head) then Xml
    else if rules.jsonOpener(head) && rules.parsesAsJson(b) then Json
    else if rules.script(head) then JavaScript
    else if rules.css(head) then Css
    else if rules.svg(head) then Svg
    else if rules.markdown(head) then Markdown
    else if IsText(b) then PlainText
    else OctetStream
  }

  /** `detectFileTypeByBuffer`; `None` stands for a missing buffer. */
  function Detect(buffer: Option<seq<byte>>, rules: TextRules): (r: MediaType)
    ensures buffer.None? || |buffer.value| < 4 ==> r == OctetStream
    ensures r == PlainText ==> buffer.Some? && IsText(buffer.value)
    ensures r == Json ==> buffer.Some? && rules.parsesAsJson(buffer.value)
  {
    if buffer.None? || |buffer.value| < 4 then OctetStream
    else
      var b := buffer.value;
      match HexMagic(Hex(b[..Min(|b|, 16)]))
      case Some(m) => m
      case None => TextStage(b, rules)
  }

  /** A missing buffer, or one of fewer than four bytes, is opaque. */
  lemma ShortBufferIsOctetStream(buffer: Option<seq<byte>>, rules: TextRules)
    requires buffer.None? || |buffer.value| < 4
    ensures Detect(buffer, rules) == OctetStream
  {
  }

  /** The cascade on bytes: a buffer of four bytes or more gets the first
      signature it starts with, and only when it has none do the text rules
      and the scan decide. */
  lemma DetectCascade(b: seq<byte>, rules: TextRules)
    requires |b| >= 4
    ensures Detect(Some(b), rules) == match MagicNumber(b)
                                      case Some(m) => m
                                      case None => TextStage(b, rules)
  {
    HexMagicIsMagicNumber(b);
  }

  /** No text rule can override a magic number. */
  lemma MagicBeatsText(b: seq<byte>, rules1: TextRules, rules2: TextRules)
    requires |b| >= 4 && MagicNumber(b).Some?
    ensures Detect(Some(b), rules1) == Detect(Some(b), rules2) == MagicNumber(b).value
  {
    DetectCascade(b, rules1);
    DetectCascade(b, rules2);
  }

  /** FF D8 FF is a JPEG, whatever follows. */
  lemma JpegSignature(b: seq<byte>, rules: TextRules)
    requires |b| >= 4 && b[0] == 0xFF && b[1] == 0xD8 && b[2] == 0xFF
    ensures Detect(Some(b), rules) == Jpeg
  {
    assert b[..3] == JpegMagic;
    DetectCascade(b, rules);
  }

  /** 1F 8B 08 is a gzip stream, whatever follows. */
  lemma GzipSignature(b: seq<byte>, rules: TextRules)
    requires |b| >= 4 && b[0] == 0x1F && b[1] == 0x8B && b[2] == 0x08
    ensures Detect(Some(b), rules) == Gzip
  {
    assert b[..3] == GzipMagic;
    DetectCascade(b, rules);
  }

  /** A buffer is WEBP exactly when bytes 0 to 3 are "RIFF" and bytes 8 to
      11 are "WEBP". */
  lemma WebpSignature(b: seq<byte>, rules: TextRules)
    ensures Detect(Some(b), rules) == Webp <==> |b| >= 12 && b[..4] == RiffMagic && b[8..12] == WebpMagic
  {
    if |b| >= 4 {
      DetectCascade(b, rules);
      LeadingPair(b, JpegMagic);
      LeadingPair(b, PngMagic);
      LeadingPair(b, GifMagic);
      LeadingPair(b, PdfMagic);
      LeadingPair(b, ZipMagic);
      LeadingPair(b, GzipMagic);
      LeadingPair(b, RarMagic);
      LeadingPair(b, RiffMagic);
    }
  }

  /** A buffer starting with a signature has its first two bytes. */
  lemma LeadingPair(b: seq<byte>, sig: seq<byte>)
    requires 2 <= |sig|
    ensures StartsWith(b, sig) ==> b[0] == sig[0] && b[1] == sig[1]
  {
    if StartsWith(b, sig) {
      assert b[..|sig|][0] == b[0] && b[..|sig|][1] == b[1];
    }
  }

  /** A buffer with no signature that no heuristic claims is plain text
      exactly when its first 512 bytes pass the scan, and opaque otherwise. */
  lemma ScanDecidesLast(b: seq<byte>, rules: TextRules)
    requires |b| >= 4 && MagicNumber(b).None?
    requires var head := b[..Min(|b|, 256)];
      !rules.html(head) && !rules.xml(head) && !(rules.jsonOpener(head) && rules.parsesAsJson(b)) &&
      !rules.script(head) && !rules.css(head) && !rules.svg(head) && !rules.markdown(head)
    ensures Detect(Some(b), rules) == (if IsText(b) then PlainText else OctetStream)
  {
    DetectCascade(b, rules);
  }
}
